=== FILE: README.md ===
# WAFA gateway core in Dafny

A model of the core of WAFA, a small HTTP gateway that sends notifications
to WhatsApp chats and answers chat commands. It covers these parts:

- **Session manager** (`BaileysAdapter`). A session record holds the socket
  status, the authentication store, the socket handle, the pending
  reconnects and the published inbound messages. One pure step function
  handles each transport event. The module also holds the disconnect-code
  table, the health check, the inbound batch filter, and the mapping of an
  outgoing message to one transport payload.
- **Authentication stores.** Composite keys, batched `get` and `set`,
  `clear` and `saveCreds`. They work over an abstract `map<string, V>`:
  - `AuthKeys` holds the logic the two stores share;
  - `LevelDbAuthStore` is the store the session uses;
  - `AuthState` is the older factory with a module-level database handle.
- **Markdown compiler** (`WhatsappStringify`). It renders a markdown
  syntax tree in WhatsApp markup.
- **Notification endpoint** (`Controller`). The request body after its
  schema transforms, the message text, and the per-chat send sequences.
  Also the health endpoint.
- **Chat commands** (`Commands`). The `/name` pattern, the `fromMe` gate,
  the lower-cased lookup, and the `chat-id` reply.
- **Error taxonomy** (`AppErrors`, `ErrorHandlers`). The five error
  classes, the body-parser and zod error handlers, the mapping from error to
  HTTP status and problem body, and the order the server installs them in.

Helper modules:

- `Wrappers` holds `Option` and `Result`.
- `Text` holds the JavaScript string operations the code uses: `split`,
  `join`, `trim`, ASCII `toLowerCase`, and the decimal rendering of numbers.
- `Types` holds the message and attachment records.

Foreign collaborators become parameters:

- base64 decoding;
- the JSON-pointer formatter;
- the markdown definition lookup;
- fresh credentials (`initCreds`);
- how each transport send ends.

Behaviours worth knowing:

- There are eight statuses.
- Reconnects are scheduled with a zero-delay timer.
- Every attachment is sent as a document.
- A text-only message with empty text is still sent.
- With no socket, `sendMessage` sends nothing and raises nothing.
- A non-`Error` value thrown by the transport is swallowed.
- The first inbound message that fails the schema ends the whole batch,
  not just that message.

Two behaviours of the code as written are proved rather than corrected:

- **Code 408 never reads as a lost connection.** The transport library
  gives `connectionLost` and `timedOut` the same code, 408. `errorMapping`
  is built from entries and the later entry wins, so a 408 close reads as
  `ERROR_TIMED_OUT`. `ERROR_CONNECTION_LOST` is therefore unreachable; see
  `ErrorMappingContents` and `ConnectionLostUnreachable`.
- **A logout close leaves the generic `ERROR` status.** `getHealth` then
  reports an unexpected error, not a logout, until the transport asks for a
  new QR scan; see `LogoutWipesStore`.

## Model

| member | source | states |
|---|---|---|
| `BaileysAdapter.MapFromEntries` | src/whatsapp/baileys/baileysAdapter.ts:36-41 | a Map built from entries holds every entry's key, and a key maps to the value of its last entry |
| `BaileysAdapter.MapFromEntriesKeys` | src/whatsapp/baileys/baileysAdapter.ts:36-41 | a Map built from entries has no other keys: each key it holds maps to the value of the last entry with that key |
| `BaileysAdapter.ErrorMapping` | src/whatsapp/baileys/baileysAdapter.ts:36-41 | `errorMapping` holds exactly the codes 428, 408 and 440, each mapped to a refined error status, none of them connection-lost |
| `BaileysAdapter.ErrorMappingContents` | src/whatsapp/baileys/baileysAdapter.ts:36-41 | the disconnect table maps exactly 428 to connection-closed, 408 to timed-out (the later 408 entry wins) and 440 to connection-replaced |
| `BaileysAdapter.CloseStatus` | src/whatsapp/baileys/baileysAdapter.ts:133-144 | a close ends in an error status other than connection-lost, and in the generic `ERROR` iff its code is not 428, 408 or 440 |
| `BaileysAdapter.CloseStatusTable` | src/whatsapp/baileys/baileysAdapter.ts:133-144 | a close always ends in an error status; 428, 408 and 440 get their refined status; every other code, the logged-out code 401 included, leaves the generic `ERROR`; no code gives connection-lost |
| `BaileysAdapter.Init` | src/whatsapp/baileys/baileysAdapter.ts:49-58 | a new client starts `CONNECTING` with a socket, nothing pending and nothing published |
| `BaileysAdapter.HandleConnectionUpdate` | src/whatsapp/baileys/baileysAdapter.ts:105-150 | a truthy QR sets `SCAN_QR` and ignores the rest of the update; `open` and `connecting` only set the status; a close with a code sets the table status, clears the store exactly on logout and schedules exactly one reconnect; an update with neither a QR nor a connection changes nothing; a close without an error object throws and changes nothing; the socket and published messages are never touched |
| `BaileysAdapter.LogoutWipesStore` | src/whatsapp/baileys/baileysAdapter.ts:133-149 | after a logout close every key lookup is empty, the creds record is gone, fresh creds are in memory, the status is `ERROR` (health reports an unexpected error) and one reconnect is pending |
| `BaileysAdapter.OrElse` | src/whatsapp/baileys/baileysAdapter.ts:84 | JavaScript's or-operator on strings: the first operand when it is a non-empty string, otherwise the second |
| `BaileysAdapter.Extract` | src/whatsapp/baileys/baileysAdapter.ts:84-91 | a message passes the schema iff it has a chat (`remoteJid`, or else `remoteJidAlt`) and a text (`conversation`, or else `extendedText`); `fromMe` is true iff the key says so or the chat ends with `newsletter` |
| `BaileysAdapter.PublishUntilInvalid` | src/whatsapp/baileys/baileysAdapter.ts:83-99 | the published records are the longest prefix of the batch whose messages all pass, in batch order, each the record extracted from its message |
| `BaileysAdapter.Intake` | src/whatsapp/baileys/baileysAdapter.ts:78-100 | a batch that is not `notify` publishes nothing; a `notify` batch publishes its longest valid prefix |
| `BaileysAdapter.IntakeStopsAtFirstInvalid` | src/whatsapp/baileys/baileysAdapter.ts:93-96 | an invalid message at position j means at most j records are published: everything after it is dropped |
| `BaileysAdapter.IntakeAllValid` | src/whatsapp/baileys/baileysAdapter.ts:83-98 | a batch of valid messages is published whole |
| `BaileysAdapter.Reconnect` | src/whatsapp/baileys/baileysAdapter.ts:60-67 | a due reconnect replaces the socket with a new one and consumes one pending reconnect, leaving status, store and published messages alone |
| `BaileysAdapter.Step` | src/whatsapp/baileys/baileysAdapter.ts:60-99 | a credentials update puts the new creds in memory and under `"creds"` and changes nothing else; a message batch appends what `Intake` publishes and changes nothing else; a due reconnect with none pending changes nothing, otherwise it makes a new socket; a connection update never touches the socket or the published messages |
| `BaileysAdapter.ReconnectAccounting` | src/whatsapp/baileys/baileysAdapter.ts:146-149 | over any run of events, reconnects pending at the end plus reconnects started equal those pending at the start plus one per close |
| `BaileysAdapter.ConnectionLostUnreachable` | src/whatsapp/baileys/baileysAdapter.ts:36-41 | no run of events from another status ever reaches `ERROR_CONNECTION_LOST` |
| `BaileysAdapter.PublishedGrows` | src/whatsapp/baileys/baileysAdapter.ts:98 | published messages are only ever appended to |
| `BaileysAdapter.GetHealth` | src/whatsapp/baileys/baileysAdapter.ts:154-194 | healthy iff `CONNECTED`; `CONNECTING` iff a not-ready error; `SCAN_QR` iff a logged-out error; an error status iff an unexpected error; every error is built by its subclass constructor |
| `BaileysAdapter.HealthDistinguishesStatuses` | src/whatsapp/baileys/baileysAdapter.ts:155-193 | two statuses with the same health answer are the same status: each cause has its own detail |
| `BaileysAdapter.PayloadFor` | src/whatsapp/baileys/baileysAdapter.ts:198-211 | a message becomes a text payload iff it has no attachment, otherwise a document payload |
| `BaileysAdapter.PayloadRoundTrip` | src/whatsapp/baileys/baileysAdapter.ts:199-211 | text, file name, mimetype and bytes can all be read back from the payload, and a document has a caption iff the text is not empty |
| `BaileysAdapter.SendMessage` | src/whatsapp/baileys/baileysAdapter.ts:196-221 | exactly one payload for the message's chat is offered iff a socket exists; the call fails iff a socket exists and the transport throws an `Error`, and then with the unexpected client error "Could not send message via Whatsapp" |
| `AuthKeys.CompositeKeyNotCreds` | src/whatsapp/baileys/levelDbAuthStore.ts:46 | no composite key equals `"creds"` |
| `AuthKeys.CompositeKeyInjective` | src/whatsapp/baileys/levelDbAuthStore.ts:23 | within a category, distinct ids have distinct keys |
| `AuthKeys.GetMany` | src/whatsapp/baileys/levelDbAuthStore.ts:24 | the batched read returns one slot per key, in key order: the stored value when the key is present, empty otherwise |
| `AuthKeys.Get` | src/whatsapp/baileys/levelDbAuthStore.ts:22-38 | the result maps exactly the requested ids whose composite key is stored, each to its stored value |
| `AuthKeys.OpFor` | src/whatsapp/baileys/levelDbAuthStore.ts:44-59 | each (category, id) pair becomes one operation on its composite key: a put of the value iff it is present, a delete otherwise |
| `AuthKeys.CategoryTasks` | src/whatsapp/baileys/levelDbAuthStore.ts:44-60 | one operation per id of a category, in id order |
| `AuthKeys.SetTasks` | src/whatsapp/baileys/levelDbAuthStore.ts:39-61 | the batch has exactly one operation per (category, id) pair |
| `AuthKeys.PairCountPrefix` | src/whatsapp/baileys/levelDbAuthStore.ts:43-44 | the pairs of the categories before one, plus that one's pairs, do not exceed the total |
| `AuthKeys.SetTasksAt` | src/whatsapp/baileys/levelDbAuthStore.ts:43-61 | pair `ui` of category `ci` is the operation at position (pairs before `ci`) + `ui`: categories in order, ids in order within each |
| `AuthKeys.SetTasksKeys` | src/whatsapp/baileys/levelDbAuthStore.ts:43-61 | every operation of the batch is on the key of some pair of the request |
| `AuthKeys.ApplyBatch` | src/whatsapp/baileys/levelDbAuthStore.ts:63 | every change a batch makes comes from one of its operations: a key that gained or changed its value was put with that value, and a key that lost its value was deleted |
| `AuthKeys.LastOpOn` | src/whatsapp/baileys/levelDbAuthStore.ts:63 | the last operation on a key is an operation of the batch on that key, and there is none iff no operation names the key |
| `AuthKeys.ApplyBatchAt` | src/whatsapp/baileys/levelDbAuthStore.ts:63 | after a batch, each key is decided by the last operation on it, and keys no operation names keep their values |
| `AuthKeys.LastOpUnique` | src/whatsapp/baileys/levelDbAuthStore.ts:63 | in a batch without repeated keys, each operation is the last one on its key |
| `AuthKeys.SetEffect` | src/whatsapp/baileys/levelDbAuthStore.ts:39-64 | after `set`, a present value is stored and an absent one deleted under each pair's key, and every key outside the request is unchanged |
| `AuthKeys.SetThenGet` | src/whatsapp/baileys/levelDbAuthStore.ts:22-64 | `set({c: {a: v, b: null}})` followed by `get(c, [a, b])` returns exactly `{a: v}` |
| `AuthKeys.SetKeepsCreds` | src/whatsapp/baileys/levelDbAuthStore.ts:39-64 | `set` never changes the `"creds"` record |
| `LevelDbAuthStore.Create` | src/whatsapp/baileys/levelDbAuthStore.ts:17-20 | creds are the stored `"creds"` record when there is one, otherwise fresh creds |
| `LevelDbAuthStore.KeysGet` | src/whatsapp/baileys/levelDbAuthStore.ts:22-38 | the result's domain is the requested ids with a stored record, and each maps to that record |
| `LevelDbAuthStore.KeysSet` | src/whatsapp/baileys/levelDbAuthStore.ts:39-64 | `set` leaves the in-memory creds alone |
| `LevelDbAuthStore.Clear` | src/whatsapp/baileys/levelDbAuthStore.ts:70-73 | `clear` puts fresh creds in memory and leaves no key at all, `"creds"` included |
| `LevelDbAuthStore.SaveCreds` | src/whatsapp/baileys/levelDbAuthStore.ts:74-76 | `saveCreds` writes the in-memory creds under `"creds"` and changes no other key |
| `LevelDbAuthStore.SaveThenCreate` | src/whatsapp/baileys/levelDbAuthStore.ts:17-76 | reopening after `saveCreds` loads the saved creds |
| `LevelDbAuthStore.KeysSetKeepsCreds` | src/whatsapp/baileys/levelDbAuthStore.ts:17-64 | reopening after a `set` loads the same creds as before it |
| `LevelDbAuthStore.ClearForgetsEverything` | src/whatsapp/baileys/levelDbAuthStore.ts:17-76 | after `clear` every lookup is empty, reopening gives fresh creds, and a following `saveCreds` leaves only the fresh creds |
| `AuthState.CreateLevelDbAuthState` | src/whatsapp/baileys/authState.ts:10-26 | the module-level database is opened only when none is open, otherwise reused as is; creds come from `"creds"` when present, else fresh |
| `AuthState.KeysGet` | src/whatsapp/baileys/authState.ts:32-47 | the result maps exactly the requested ids with a stored record, each to that record |
| `AuthState.KeysSet` | src/whatsapp/baileys/authState.ts:49-74 | `set` writes to the same database and leaves the captured creds alone |
| `AuthState.KeysClear` | src/whatsapp/baileys/authState.ts:75-77 | `keys.clear` empties the database but keeps the captured creds |
| `AuthState.SaveCreds` | src/whatsapp/baileys/authState.ts:80-82 | `saveCreds` writes the captured creds under `"creds"`, no other key or value changes, and the captured creds stay |
| `AuthState.SingletonReuse` | src/whatsapp/baileys/authState.ts:15-26 | once a database is open, later calls reuse it whatever location they name, and see the creds saved before |
| `AuthState.ClearThenSaveRestoresOldCreds` | src/whatsapp/baileys/authState.ts:75-82 | saving after `keys.clear` writes the old captured creds back: the database holds only them |
| `WhatsappStringify.Compile` | src/whatsapp/markdown/whatsappStringify.ts:6-100 | the output is at least as long as the text of the tree's leaves |
| `WhatsappStringify.LeavesInOutput` | src/whatsapp/markdown/whatsappStringify.ts:6-100 | no literal text is lost: the leaves' text can be read off the output in document order, with markup and list markers in between |
| `WhatsappStringify.ItemsLeavesInOutput` | src/whatsapp/markdown/whatsappStringify.ts:47-61 | the children's leaf text can be read off their joined pieces in order |
| `WhatsappStringify.FirstNumber` | src/whatsapp/markdown/whatsappStringify.ts:52 | the first item number (`start`, or else 1) is at least 1, and is the start when that is positive |
| `WhatsappStringify.Items` | src/whatsapp/markdown/whatsappStringify.ts:47-61 | the children's text is at least as long as their leaves' text |
| `WhatsappStringify.ItemsJoin` | src/whatsapp/markdown/whatsappStringify.ts:47-61 | the children's text is their pieces joined with no separator, in order, each piece the child's text behind its list marker |
| `WhatsappStringify.ParentRendering` | src/whatsapp/markdown/whatsappStringify.ts:47-99 | every parent renders as its type's opening marker, its children's pieces in order, then its closing marker (`*`, `_`, `~`, heading, paragraph, link, resolved reference, blockquote; nothing for other types) |
| `WhatsappStringify.LeafRendering` | src/whatsapp/markdown/whatsappStringify.ts:7-45 | code keeps its value between fences and inline code between backticks; other literals pass verbatim; the two breaks, empty definitions and footnote references, and images as `[alt](url)` |
| `WhatsappStringify.ImageReferenceRendering` | src/whatsapp/markdown/whatsappStringify.ts:31-41 | an image reference renders empty iff unresolved; resolved, it ends with `(url)` and starts with `[alt]` iff the alt text is non-empty |
| `WhatsappStringify.ItemsSameMarkers` | src/whatsapp/markdown/whatsappStringify.ts:47-59 | children under parents whose markers agree render the same |
| `WhatsappStringify.ListStartZeroIsOne` | src/whatsapp/markdown/whatsappStringify.ts:52 | an ordered list starting at 0, at 1, or with no start renders the same |
| `WhatsappStringify.OrderedListNumbers` | src/whatsapp/markdown/whatsappStringify.ts:50-58 | item k of an ordered list is numbered (`start`, or else 1) + k and no two items share a number |
| `WhatsappStringify.UnresolvedLinkReference` | src/whatsapp/markdown/whatsappStringify.ts:87-93 | a link reference without a definition renders as its bare text |
| `WhatsappStringify.DefinitionsFrame` | src/whatsapp/markdown/whatsappStringify.ts:31-93 | the output depends on the definition lookup only at the identifiers the tree references |
| `WhatsappStringify.ItemsFrame` | src/whatsapp/markdown/whatsappStringify.ts:47-61 | a parent's children render the same under two definition lookups that agree on every identifier the children reference |
| `WhatsappStringify.PlainTextVerbatim` | src/whatsapp/markdown/whatsappStringify.ts:6-99 | plain text (literals and parents of types `compile` does not test for) comes out verbatim: its leaves in document order, with no escaping or separators |
| `WhatsappStringify.PlainItemsVerbatim` | src/whatsapp/markdown/whatsappStringify.ts:47-61 | the plain children of a transparent parent render as their leaves concatenated in order |
| `WhatsappStringify.Compiler` | src/whatsapp/markdown/whatsappStringify.ts:102-106 | the output is the root's text with the whitespace at both ends removed, and neither starts nor ends with whitespace |
| `Text.Trim` | src/whatsapp/markdown/whatsappStringify.ts:105 | `trim()` keeps a middle slice that has only whitespace before and after it and starts and ends with non-whitespace |
| `Text.TrimIdempotent` | src/whatsapp/markdown/whatsappStringify.ts:105 | trimming twice is trimming once |
| `Text.NatToString` | src/whatsapp/markdown/whatsappStringify.ts:52 | a number renders as at least one decimal digit with no leading zero |
| `Text.NatToStringValue` | src/whatsapp/markdown/whatsappStringify.ts:52 | reading the rendered digits back gives the number |
| `Text.Split` | src/whatsapp/controller.ts:23 | `split(",")` gives at least one piece and no piece contains a comma |
| `Text.JoinSplit` | src/whatsapp/controller.ts:23 | joining the pieces with the separator gives the input back |
| `Text.SplitJoin` | src/whatsapp/controller.ts:23 | splitting a join of separator-free pieces gives the pieces back |
| `Text.ToLower` | src/commands/index.ts:16 | lower-casing keeps the length and lower-cases each ASCII capital |
| `Text.ToLowerIdempotent` | src/commands/index.ts:16 | lower-casing leaves no capital and lower-casing twice is lower-casing once |
| `Controller.ToAttachment` | src/whatsapp/controller.ts:11-21 | filename and mimetype pass through; only the base64 text is decoded into the bytes |
| `Controller.Transform` | src/whatsapp/controller.ts:7-24 | title and message pass through, each attachment is transformed in place, and the chats are comma-free ids |
| `Controller.ChatsRoundTrip` | src/whatsapp/controller.ts:23 | the chat ids joined with commas give the request's field back |
| `Controller.NotificationText` | src/whatsapp/controller.ts:46-49 | the text ends with the message; it is the message alone iff the title is empty, else it starts with the bold title line |
| `Controller.ChatMessages` | src/whatsapp/controller.ts:43-62 | each chat gets max(1, attachments) sends to that chat: the first carries the text and the first attachment (or none), each later one the next attachment and empty text |
| `Controller.ChatMessagesLoseNothing` | src/whatsapp/controller.ts:43-62 | a chat's sends carry every attachment exactly once in request order, and the text exactly once |
| `Controller.FirstThrow` | src/whatsapp/controller.ts:44-61 | the first send whose transport throws an `Error`, or the end when none does |
| `Controller.DeliverFrom` | src/whatsapp/controller.ts:43-63 | a chat's sends run in order and stop at the first failure: with a socket, the sends up to and including the first throwing one are offered, each the payload of its message; the chat fails iff one throws; with no socket nothing is offered and nothing fails |
| `Controller.HealthEndpoint` | src/whatsapp/controller.ts:27-33 | `GET /health` answers `UP` iff the client is connected, otherwise it throws the health error |
| `Controller.SendNotification` | src/whatsapp/controller.ts:35-69 | health is checked before the body, so an unhealthy client fails with the health error and no send, then an invalid body fails with zod's issues and no send; otherwise every chat runs its own sequence and the request succeeds iff every chat's does |
| `Controller.HealthyFanOut` | src/whatsapp/controller.ts:35-69 | on a healthy client whose transport never throws, every chat is offered all its payloads in order and the request succeeds |
| `Commands.CommandRun` | src/commands/index.ts:8 | the length of the run of `[0-9a-zA-Z-]` characters a string starts with |
| `Commands.MatchCommand` | src/commands/index.ts:8-14 | the expression matches iff the text is a slash followed by at least one command character |
| `Commands.MatchCommandIsMaximalRun` | src/commands/index.ts:8-16 | the match returns `name` iff the text is `/` + `name`, `name` is a non-empty run of command characters, and the run cannot go on |
| `Commands.GetChatIdCommand` | src/commands/getChatIdCommand.ts:3-8 | one reply to the same chat, without attachment, reading ``This chat id is `<chat>` `` |
| `Commands.ChatIdReplyQuotesChat` | src/commands/getChatIdCommand.ts:6 | the chat id can be read back verbatim from between the prefix and the closing backtick |
| `Commands.HandleMessage` | src/commands/index.ts:10-24 | a message triggers a reply iff it is from this account, matches, and its lower-cased name is registered; the reply is then the chat-id reply |
| `Commands.ChatIdTriggers` | src/commands/index.ts:10-24 | an own message matching a name that lower-cases to `chat-id` gets the chat-id reply |
| `Commands.UpperCaseTriggers` | src/commands/index.ts:16 | `/CHAT-ID` triggers the reply |
| `Commands.TrailingWordsIgnored` | src/commands/index.ts:8 | `/chat-id now` triggers the reply |
| `Commands.LongerNameIgnored` | src/commands/index.ts:8-20 | `/chat-idx` does nothing: the run is maximal |
| `Commands.NotOwnOrNoSlashIgnored` | src/commands/index.ts:11-14 | a message from someone else, or one without the slash, does nothing |
| `Commands.Replies` | src/commands/index.ts:10-24 | a stream of messages triggers at most one reply each |
| `Commands.RepliesAppend` | src/commands/index.ts:10-24 | the listener handles messages one at a time: the replies to a concatenated stream are the replies to each part, in order |
| `Commands.RepliesComplete` | src/commands/index.ts:10-24 | every message that triggers a reply gets it, placed right after the replies to the messages before it |
| `Commands.RepliesAnswerOwnMessages` | src/commands/index.ts:10-24 | every reply is what the listener answers to some message of the stream, so that message is one this account wrote that matches a registered command, and the reply is its chat-id reply |
| `Commands.RepliesOne` | src/commands/index.ts:10-24 | on one message the stream listener answers exactly the listener's reply, and nothing to a message that triggers no command |
| `AppErrors.NewAppError` | src/errors/appErrors.ts:1-12 | an application error keeps type, title and detail as given, and its message is the detail |
| `AppErrors.SubclassesKeepDetail` | src/errors/appErrors.ts:14-48 | each of the five subclasses keeps the detail as detail and message, with its class's fixed type and title; a validation error's field list defaults to empty |
| `AppErrors.TypeIdentifiesClass` | src/errors/appErrors.ts:21-46 | the five type strings are pairwise distinct: subclass errors with the same type have the same class and title |
| `ErrorHandlers.BodyParserShapesExclusive` | src/middlewares/jsonErrorHandler.ts:15-25 | no error matches both the too-large and the parse-failed shape |
| `ErrorHandlers.JsonErrorHandler` | src/middlewares/jsonErrorHandler.ts:33-48 | a too-large error becomes a payload-too-large error quoting length and limit; a parse failure becomes a validation error with its message and no field errors; the value passed on differs from the input iff one shape matched |
| `ErrorHandlers.ZodErrorHandler` | src/middlewares/zodErrorHandler.ts:13-27 | a zod error becomes a validation error with the fixed detail and one field error per issue, in order, carrying its message and formatted path; anything else passes unchanged |
| `ErrorHandlers.GlobalErrorHandler` | src/middlewares/globalErrorHandler.ts:30-66 | the sent status is the body's; 500 iff not a subclass error, 400 iff validation, 413 iff too large, 503 iff a client error; an application error supplies type, title and detail; `errors` is present iff a validation error lists field errors |
| `ErrorHandlers.BodyParserErrorResponse` | src/server.ts:21-27 | a body-parser error passes the JSON handler, then the zod and global handlers: too large answers 413 quoting length and limit, unparsable answers 400 with the parser's message and no field list, an application error or any other value gets the global handler's answer unchanged |
| `ErrorHandlers.RouteErrorResponse` | src/server.ts:21-27 | a route's error skips the JSON handler: a zod error answers 400 with the fixed detail and field errors iff there are issues, anything else gets the global handler's answer, so a non-application value answers 500 |
| `ErrorHandlers.BodyParserErrorOutcomes` | src/server.ts:15-27 | through the installed middleware chain, a too-large body answers 413 with the limit in the detail, an unparsable body 400 without field errors, anything else 500 with the unknown-error body |
| `ErrorHandlers.ZodErrorOutcome` | src/server.ts:23-27 | a schema failure in a route answers 400 with the fixed detail and a field error per issue iff there are issues |
| `ErrorHandlers.AppErrorOutcome` | src/middlewares/globalErrorHandler.ts:48-64 | an application error thrown by a route reaches the client with its own type, title and detail, and a client error answers 503 |

## Left out

- The transport is not modelled: the socket protocol, its event emitter and
  `sock.sendMessage`. The socket is a present-or-absent handle, and how
  each send ends is a parameter.
- QR terminal rendering and logging produce no state, so they are left out.
- The real timer is left out. A scheduled reconnect is a pending count,
  consumed by a `ReconnectDue` event.
- The asynchronous start-up and its race between opening the store and
  creating the socket are concurrency, so they are left out. `Init` starts
  from a client whose store is open and whose first socket exists.
- LevelDB I/O, batch atomicity and JSONB encoding are left out. The
  database is an in-memory map, and encoding is assumed to round-trip.
  Stored values are encoded strings, which are never empty. So "truthy" is
  modelled as "present". A falsy record value in `keys.set` is modelled as
  an absent value.
- `initAuthCreds()` is the opaque parameter `initCreds`.
- The remark parsing pipeline and the strikethrough plugin only register
  foreign parsers. The compiler works on a given tree.
- The markdown definition lookup, including its identifier normalisation,
  is a map parameter. The compiler trims whatever that map yields.
- Environment configuration, the Express wiring, the router and listening
  are left out; they hold no logic. The middleware order is modelled in
  `BodyParserErrorResponse` and `RouteErrorResponse`.
- Three foreign functions are parameters or predicates: base64 decoding is
  `decode`, the JSON-pointer formatter is `formatPointer`, and the zod
  schemas are predicates over a thrown value's properties.
- The request body's schema check is the `body` parameter of
  `SendNotification`: the parsed request, or zod's issues.
- JavaScript numbers in body-parser errors are modelled as integers.
- `toLowerCase` is modelled for ASCII only. Command names are ASCII by the
  pattern.
- `Controller.SendNotification`: it does not model the interleaving of
  chats under `Promise.all`. Each chat's sequence is modelled independently.
  The rejection that ends the request is the same error whichever chat
  raised it, and other chats go on sending.
- `BaileysAdapter.HandleConnectionUpdate`: a close without an error object,
  or whose error has no `output`, makes `err.output.statusCode` throw a
  `TypeError` (src/whatsapp/baileys/baileysAdapter.ts:130-131). The handler
  is `async`, so this rejects its promise, and nothing handles the
  rejection; in Node's default mode an unhandled rejection ends the
  process. The model only says the session state is unchanged; the
  rejection and the process ending are not represented. A close whose
  error has an `output` but no status code is not modelled separately.
- `AuthKeys.SetEffect`: it is stated only for requests whose composite keys
  are pairwise distinct. Keys from different categories can coincide
  (`a-b` + `c` and `a` + `b-c`). For those requests, `ApplyBatchAt` gives
  the general rule: the last operation on a key wins.
- `BaileysAdapter.MapFromEntries`: its own contract states only which keys
  are present and what they map to. That no other key is present is the
  separate lemma `MapFromEntriesKeys`.
- The command handler's promise is not awaited (src/commands/index.ts:24),
  and the server installs no handler for unhandled rejections. A failed
  chat-id reply therefore becomes an unhandled rejection, which ends a
  Node process in its default mode. The model does not represent that
  rejection or the process ending: `HandleMessage` only says which reply
  is attempted.

=== FILE: app_errors.dfy ===
/** The application's error classes. Every error carries a machine-readable
    `type`, a human `title` and a `detail`; its JavaScript `message` is the
    detail. The class (`instanceof`) is kept apart from the `type` string,
    because the base class can be built with any strings at all. */
module AppErrors {

  /** One invalid field of a request: what is wrong and a JSON pointer to it. */
  datatype FieldError = FieldError(detail: string, pointer: string)

  /** The class an error was constructed from. */
  datatype ErrorClass =
    | BaseClass
    | ValidationClass(errors: seq<FieldError>)
    | PayloadTooLargeClass
    | LoggedOutClass
    | NotReadyClass
    | UnexpectedClass

  datatype AppError = AppError(kind: ErrorClass, errorType: string, title: string, detail: string) {

    /** The `message` the `Error` super-constructor records. */
    function Message(): string
    {
      detail
    }
  }

  const ValidationType := "validation-error"
  const ValidationTitle := "Your request is not valid."
  const PayloadTooLargeType := "payload-too-large"
  const PayloadTooLargeTitle := "Payload too large"
  const LoggedOutType := "client-logged-out"
  const LoggedOutTitle := "WhatsApp client is logged out."
  const NotReadyType := "client-not-ready"
  const NotReadyTitle := "WhatsApp client is not ready."
  const UnexpectedType := "client-error"
  const UnexpectedTitle := "WhatsApp client encountered an error."

  /** `new AppError(type, title, detail)`. */
  function NewAppError(errorType: string, title: string, detail: string): (e: AppError)
    ensures e.kind == BaseClass
    ensures e.errorType == errorType && e.title == title && e.detail == detail
    ensures e.Message() == detail
  {
    AppError(BaseClass, errorType, title, detail)
  }

  /** `new ValidationError(detail, errors)`; `ValidationError`'s default for
      `errors` is the empty list, see `ValidationErrorOf`. */
  function ValidationError(detail: string, errors: seq<FieldError>): (e: AppError)
  {
    AppError(ValidationClass(errors), ValidationType, ValidationTitle, detail)
  }

  /** `new ValidationError(detail)` with the default, empty, field list. */
  function ValidationErrorOf(detail: string): (e: AppError)
  {
    ValidationError(detail, [])
  }

  function PayloadTooLargeError(detail: string): (e: AppError)
  {
    AppError(PayloadTooLargeClass, PayloadTooLargeType, PayloadTooLargeTitle, detail)
  }

  function WaClientLoggedOutError(detail: string): (e: AppError)
  {
    AppError(LoggedOutClass, LoggedOutType, LoggedOutTitle, detail)
  }

  function WaClientNotReadyError(detail: string): (e: AppError)
  {
    AppError(NotReadyClass, NotReadyType, NotReadyTitle, detail)
  }

  function WaClientUnexpectedError(detail: string): (e: AppError)
  {
    AppError(UnexpectedClass, UnexpectedType, UnexpectedTitle, detail)
  }

  /** An error built by one of the five subclass constructors: its fields
      are the fixed type and title of its class, plus any detail. */
  predicate FromSubclass(e: AppError)
  {
    match e.kind
    case BaseClass => false
    case ValidationClass(errors) => e == ValidationError(e.detail, errors)
    case PayloadTooLargeClass => e == PayloadTooLargeError(e.detail)
    case LoggedOutClass => e == WaClientLoggedOutError(e.detail)
    case NotReadyClass => e == WaClientNotReadyError(e.detail)
    case UnexpectedClass => e == WaClientUnexpectedError(e.detail)
  }

  /** Every subclass constructor keeps the detail it is given as both
      `detail` and `message`, and leaves only the detail (and a validation
      error's field list) free. */
  lemma {:induction false} SubclassesKeepDetail(detail: string, errors: seq<FieldError>)
    ensures var es := [ValidationError(detail, errors), PayloadTooLargeError(detail),
                       WaClientLoggedOutError(detail), WaClientNotReadyError(detail),
                       WaClientUnexpectedError(detail)];
            forall k :: 0 <= k < |es| ==> FromSubclass(es[k]) && es[k].detail == detail && es[k].Message() == detail
    ensures ValidationErrorOf(detail).kind.errors == []
  {
  }

  /** The five subclass type strings are pairwise distinct, so among
      subclass-built errors the `type` field names the class. */
  lemma TypeIdentifiesClass(a: AppError, b: AppError)
    requires FromSubclass(a) && FromSubclass(b)
    requires a.errorType == b.errorType
    ensures a.kind.ValidationClass? <==> b.kind.ValidationClass?
    ensures !a.kind.ValidationClass? ==> a.kind == b.kind
    ensures a.title == b.title
  {
  }
}

=== FILE: auth_keys.dfy ===
/** The signal-key half of the authentication store, shared word for word by
    both LevelDB adapters: key records live under composite keys
    `"<category>-<id>"`, `get` reads a batch of ids in one multi-key read and
    omits the missing ones, and `set` turns a nested category/id update into
    one batch of puts and deletes. The database is an abstract
    `map<string, V>`; values are stored already decoded (the JSON encoding is
    assumed to round-trip). */
module AuthKeys {
  import opened Wrappers

  /** The fixed key the credentials are stored under. */
  const CredsKey := "creds"

  /** The database key of record `id` in `category`. */
  function CompositeKey(category: string, id: string): string
  {
    category + "-" + id
  }

  /** No key record can overwrite or shadow the credentials: every composite
      key contains a dash and `"creds"` does not. */
  lemma CompositeKeyNotCreds(category: string, id: string)
    ensures CompositeKey(category, id) != CredsKey
  {
    var k := CompositeKey(category, id);
    assert k[|category|] == '-';
    assert '-' !in CredsKey;
  }

  /** Within one category, distinct ids give distinct keys. */
  lemma CompositeKeyInjective(category: string, a: string, b: string)
    requires a != b
    ensures CompositeKey(category, a) != CompositeKey(category, b)
  {
    var ka := CompositeKey(category, a);
    var kb := CompositeKey(category, b);
    assert ka[|category| + 1..] == a;
    assert kb[|category| + 1..] == b;
  }

  // ---------------------------------------------------------------- get

  /** The one batched read `getMany(keys)`: a slot per key, in key order,
      empty where the key is missing. */
  function GetMany<V>(db: map<string, V>, keys: seq<string>): (values: seq<Option<V>>)
    ensures |values| == |keys|
    ensures forall i :: 0 <= i < |keys| ==> (values[i].Some? <==> keys[i] in db)
    ensures forall i :: 0 <= i < |keys| && keys[i] in db ==> values[i] == Some(db[keys[i]])
  {
    seq(|keys|, i requires 0 <= i < |keys| => if keys[i] in db then Some(db[keys[i]]) else None)
  }

  /** What `get(category, ids)` should return: every requested id whose
      record is present, mapped to that record, and no other id. */
  ghost function KeysView<V>(db: map<string, V>, category: string, ids: seq<string>): map<string, V>
  {
    map id | id in ids && CompositeKey(category, id) in db :: db[CompositeKey(category, id)]
  }

  lemma KeysViewSnoc<V>(db: map<string, V>, category: string, ids: seq<string>, id: string)
    ensures KeysView(db, category, ids + [id])
            == if CompositeKey(category, id) in db
               then KeysView(db, category, ids)[id := db[CompositeKey(category, id)]]
               else KeysView(db, category, ids)
  {
  }

  /** `keys.get(type, ids)`: builds the composite keys in id order, reads
      them in one `getMany`, and keeps exactly the ids whose slot holds a
      value. */
  method Get<V>(db: map<string, V>, category: string, ids: seq<string>) returns (data: map<string, V>)
    ensures data == KeysView(db, category, ids)
  {
    var keys := seq(|ids|, i requires 0 <= i < |ids| => CompositeKey(category, ids[i]));
    var values := GetMany(db, keys);
    data := map[];
    var i := 0;
    while i < |ids|
      invariant 0 <= i <= |ids|
      invariant data == KeysView(db, category, ids[..i])
    {
      KeysViewSnoc(db, category, ids[..i], ids[i]);
      assert ids[..i + 1] == ids[..i] + [ids[i]];
      if values[i].Some? {
        data := data[ids[i] := values[i].value];
      }
      i := i + 1;
    }
    assert ids[..|ids|] == ids;
  }

  // ---------------------------------------------------------------- set

  /** One id of a `set` request; `None` is a null or undefined value, which
      asks for the record to be deleted. */
  datatype Update<V> = Update(id: string, value: Option<V>)

  /** The ids of one category in a `set` request, in enumeration order. */
  datatype CategoryUpdates<V> = CategoryUpdates(category: string, updates: seq<Update<V>>)

  /** One operation of a LevelDB batch. */
  datatype BatchOp<V> = Put(key: string, value: V) | Del(key: string)

  /** The operation for one (category, id) pair: a put of a present value,
      a delete otherwise. */
  function OpFor<V>(category: string, u: Update<V>): (op: BatchOp<V>)
    ensures op.key == CompositeKey(category, u.id)
    ensures op.Put? <==> u.value.Some?
    ensures op.Put? ==> op.value == u.value.value
  {
    match u.value
    case Some(v) => Put(CompositeKey(category, u.id), v)
    case None => Del(CompositeKey(category, u.id))
  }

  /** The number of (category, id) pairs in a request. */
  function PairCount<V>(data: seq<CategoryUpdates<V>>): nat
  {
    if |data| == 0 then 0 else PairCount(data[..|data| - 1]) + |data[|data| - 1].updates|
  }

  lemma {:induction false} PairCountPrefix<V>(data: seq<CategoryUpdates<V>>, ci: nat)
    requires ci < |data|
    ensures PairCount(data[..ci]) + |data[ci].updates| <= PairCount(data)
    decreases |data|
  {
    var n := |data| - 1;
    if ci < n {
      assert data[..n][..ci] == data[..ci];
      PairCountPrefix(data[..n], ci);
    } else {
      assert data[..ci] == data[..n];
    }
  }

  /** Every database key a request touches. */
  ghost function BatchKeys<V>(data: seq<CategoryUpdates<V>>): set<string>
  {
    set ci, ui | 0 <= ci < |data| && 0 <= ui < |data[ci].updates| ::
      CompositeKey(data[ci].category, data[ci].updates[ui].id)
  }

  /** The operations for one category, ids in order. */
  function CategoryTasks<V>(c: CategoryUpdates<V>): (ops: seq<BatchOp<V>>)
    ensures |ops| == |c.updates|
    ensures forall ui :: 0 <= ui < |ops| ==> ops[ui] == OpFor(c.category, c.updates[ui])
  {
    seq(|c.updates|, ui requires 0 <= ui < |c.updates| => OpFor(c.category, c.updates[ui]))
  }

  /** The batch `keys.set` builds: one operation per (category, id) pair,
      categories in order and ids in order within each. */
  function SetTasks<V>(data: seq<CategoryUpdates<V>>): (ops: seq<BatchOp<V>>)
    ensures |ops| == PairCount(data)
  {
    if |data| == 0 then []
    else SetTasks(data[..|data| - 1]) + CategoryTasks(data[|data| - 1])
  }

  /** The pair at position `ui` of category `ci` becomes the operation at
      position `PairCount(data[..ci]) + ui` of the batch. */
  lemma {:induction false} SetTasksAt<V>(data: seq<CategoryUpdates<V>>, ci: nat, ui: nat)
    requires ci < |data| && ui < |data[ci].updates|
    ensures PairCount(data[..ci]) + ui < |SetTasks(data)|
    ensures SetTasks(data)[PairCount(data[..ci]) + ui] == OpFor(data[ci].category, data[ci].updates[ui])
    decreases |data|
  {
    var n := |data| - 1;
    var front := SetTasks(data[..n]);
    var last := CategoryTasks(data[n]);
    assert SetTasks(data) == front + last;
    PairCountPrefix(data, ci);
    if ci < n {
      assert data[..n][ci] == data[ci];
      assert data[..n][..ci] == data[..ci];
      SetTasksAt(data[..n], ci, ui);
      assert (front + last)[PairCount(data[..ci]) + ui] == front[PairCount(data[..ci]) + ui];
    } else {
      assert data[..ci] == data[..n];
      assert (front + last)[|front| + ui] == last[ui];
    }
  }

  /** Every operation of the batch is on the key of some pair of the
      request. */
  lemma {:induction false} SetTasksKeys<V>(data: seq<CategoryUpdates<V>>, j: nat)
    requires j < |SetTasks(data)|
    ensures SetTasks(data)[j].key in BatchKeys(data)
    decreases |data|
  {
    var n := |data| - 1;
    var front := SetTasks(data[..n]);
    if j < |front| {
      SetTasksKeys(data[..n], j);
      var k := front[j].key;
      var ci, ui :| 0 <= ci < n && 0 <= ui < |data[..n][ci].updates|
                    && k == CompositeKey(data[..n][ci].category, data[..n][ci].updates[ui].id);
      assert data[..n][ci] == data[ci];
    } else {
      var ui := j - |front|;
      assert SetTasks(data)[j] == OpFor(data[n].category, data[n].updates[ui]);
    }
  }

  /** One batch operation applied to the database. */
  function ApplyOp<V>(db: map<string, V>, op: BatchOp<V>): map<string, V>
  {
    match op
    case Put(k, v) => db[k := v]
    case Del(k) => db - {k}
  }

  /** `db.batch(ops)`: the operations applied in order, all together. */
  /** Every change the batch makes comes from one of its operations: a key
      that gained or changed its value was put with that value, and a key
      that lost its value was deleted. */
  function ApplyBatch<V>(db: map<string, V>, ops: seq<BatchOp<V>>): (r: map<string, V>)
    ensures forall k :: k in r && !(k in db && r[k] == db[k]) ==> exists j :: 0 <= j < |ops| && ops[j] == Put(k, r[k])
    ensures forall k :: k in db && k !in r ==> exists j :: 0 <= j < |ops| && ops[j] == Del(k)
  {
    if |ops| == 0 then db
    else
      var n := |ops| - 1;
      assert forall j :: 0 <= j < n ==> ops[..n][j] == ops[j];
      ApplyOp(ApplyBatch(db, ops[..n]), ops[n])
  }

  /** The last operation of a batch on key `k`, if any. */
  function LastOpOn<V>(ops: seq<BatchOp<V>>, k: string): (r: Option<BatchOp<V>>)
    ensures r.Some? ==> r.value in ops && r.value.key == k
    ensures r.None? <==> forall j :: 0 <= j < |ops| ==> ops[j].key != k
  {
    if |ops| == 0 then None
    else if ops[|ops| - 1].key == k then Some(ops[|ops| - 1])
    else
      var r := LastOpOn(ops[..|ops| - 1], k);
      assert forall j :: 0 <= j < |ops| - 1 ==> ops[..|ops| - 1][j] == ops[j];
      r
  }

  /** The meaning of a batch, key by key: the last operation on a key
      decides it, and a key no operation names keeps its old value. */
  lemma {:induction false} ApplyBatchAt<V>(db: map<string, V>, ops: seq<BatchOp<V>>, k: string)
    ensures var r := ApplyBatch(db, ops);
            match LastOpOn(ops, k)
            case None => (k in r <==> k in db) && (k in db ==> r[k] == db[k])
            case Some(op) => (k in r <==> op.Put?) && (op.Put? ==> r[k] == op.value)
    decreases |ops|
  {
    if |ops| > 0 {
      ApplyBatchAt(db, ops[..|ops| - 1], k);
    }
  }

  /** In a batch without repeated keys, the operation at position `j` is the
      last one on its key. */
  lemma {:induction false} LastOpUnique<V>(ops: seq<BatchOp<V>>, j: nat)
    requires j < |ops|
    requires forall a, b :: 0 <= a < b < |ops| ==> ops[a].key != ops[b].key
    ensures LastOpOn(ops, ops[j].key) == Some(ops[j])
    decreases |ops|
  {
    if j < |ops| - 1 {
      assert ops[|ops| - 1].key != ops[j].key;
      assert ops[..|ops| - 1][j] == ops[j];
      LastOpUnique(ops[..|ops| - 1], j);
    }
  }

  /** No two pairs of the request share a database key. */
  predicate DistinctKeys<V>(data: seq<CategoryUpdates<V>>)
  {
    var ops := SetTasks(data);
    forall a, b :: 0 <= a < b < |ops| ==> ops[a].key != ops[b].key
  }

  /** The effect of `keys.set` on the database: every pair of the request is
      stored when its value is present and gone when it is not, and every key
      outside the request is untouched. */
  lemma SetEffect<V>(db: map<string, V>, data: seq<CategoryUpdates<V>>)
    requires DistinctKeys(data)
    ensures var r := ApplyBatch(db, SetTasks(data));
            forall ci, ui :: 0 <= ci < |data| && 0 <= ui < |data[ci].updates| ==>
              var u := data[ci].updates[ui];
              var k := CompositeKey(data[ci].category, u.id);
              (k in r <==> u.value.Some?) && (u.value.Some? ==> r[k] == u.value.value)
    ensures var r := ApplyBatch(db, SetTasks(data));
            forall k :: k !in BatchKeys(data) ==> (k in r <==> k in db) && (k in db ==> r[k] == db[k])
  {
    var ops := SetTasks(data);
    var r := ApplyBatch(db, ops);
    forall ci, ui | 0 <= ci < |data| && 0 <= ui < |data[ci].updates|
      ensures var u := data[ci].updates[ui];
              var k := CompositeKey(data[ci].category, u.id);
              (k in r <==> u.value.Some?) && (u.value.Some? ==> r[k] == u.value.value)
    {
      var j := PairCount(data[..ci]) + ui;
      SetTasksAt(data, ci, ui);
      LastOpUnique(ops, j);
      ApplyBatchAt(db, ops, ops[j].key);
    }
    forall k | k !in BatchKeys(data)
      ensures (k in r <==> k in db) && (k in db ==> r[k] == db[k])
    {
      forall j | 0 <= j < |ops|
        ensures ops[j].key != k
      {
        SetTasksKeys(data, j);
      }
      ApplyBatchAt(db, ops, k);
    }
  }

  /** A `set` that writes `a` and deletes `b` in one category, followed by a
      `get` of both, returns `a` alone. */
  lemma SetThenGet<V>(db: map<string, V>, category: string, a: string, b: string, v: V)
    requires a != b
    ensures var data := [CategoryUpdates(category, [Update(a, Some(v)), Update(b, None)])];
            KeysView(ApplyBatch(db, SetTasks(data)), category, [a, b]) == map[a := v]
  {
    var data := [CategoryUpdates(category, [Update(a, Some(v)), Update(b, None)])];
    var ka, kb := CompositeKey(category, a), CompositeKey(category, b);
    CompositeKeyInjective(category, a, b);
    var ops := SetTasks(data);
    assert data[..0] == [];
    SetTasksAt(data, 0, 0);
    SetTasksAt(data, 0, 1);
    assert |ops| == 2 && ops[0] == Put(ka, v) && ops[1] == Del(kb);
    assert DistinctKeys(data);
    SetEffect(db, data);
    var r := ApplyBatch(db, ops);
    assert data[0].updates[0] == Update(a, Some(v));
    assert data[0].updates[1] == Update(b, None);
    PairView(r, category, a, b, v);
  }

  /** A lookup of two ids, the first stored and the second not. */
  lemma PairView<V>(r: map<string, V>, category: string, a: string, b: string, v: V)
    requires CompositeKey(category, a) in r && r[CompositeKey(category, a)] == v
    requires CompositeKey(category, b) !in r
    ensures KeysView(r, category, [a, b]) == map[a := v]
  {
    var view := KeysView(r, category, [a, b]);
    assert view.Keys == {a};
  }

  /** `keys.set` never touches the credentials record. */
  lemma SetKeepsCreds<V>(db: map<string, V>, data: seq<CategoryUpdates<V>>)
    ensures var r := ApplyBatch(db, SetTasks(data));
            (CredsKey in r <==> CredsKey in db) && (CredsKey in db ==> r[CredsKey] == db[CredsKey])
  {
    var ops := SetTasks(data);
    forall j | 0 <= j < |ops|
      ensures ops[j].key != CredsKey
    {
      SetTasksKeys(data, j);
      var ci, ui :| 0 <= ci < |data| && 0 <= ui < |data[ci].updates|
                    && ops[j].key == CompositeKey(data[ci].category, data[ci].updates[ui].id);
      CompositeKeyNotCreds(data[ci].category, data[ci].updates[ui].id);
    }
    ApplyBatchAt(db, ops, CredsKey);
  }
}

=== FILE: auth_state.dfy ===
/** The older authentication-state factory. It keeps one module-level
    database handle, opened by the first call only, and returns credentials
    captured at creation. Unlike the store the session manager uses, its
    `keys.clear` empties the database without resetting those credentials. */
module AuthState {
  import opened AuthKeys

  /** The module-level `db` variable: unset until the first call, then the
      handle opened at that call's location, with its contents. */
  datatype DbSlot<V> = Unset | Opened(location: string, contents: map<string, V>)

  /** What a call returns: the shared handle and the captured credentials. */
  datatype AuthState<V> = AuthState(slot: DbSlot<V>, creds: V)

  /** `createLevelDbAuthState(location)`: opens a database at `location`
      (whose persisted contents are `persisted`) only when none is open yet,
      then loads the credentials from it or starts fresh ones. */
  function CreateLevelDbAuthState<V>(slot: DbSlot<V>, location: string, persisted: map<string, V>, initCreds: V)
    : (st: AuthState<V>)
    ensures st.slot.Opened?
    ensures slot.Opened? ==> st.slot == slot
    ensures slot.Unset? ==> st.slot == Opened(location, persisted)
    ensures CredsKey in st.slot.contents ==> st.creds == st.slot.contents[CredsKey]
    ensures CredsKey !in st.slot.contents ==> st.creds == initCreds
  {
    var handle := if slot.Unset? then Opened(location, persisted) else slot;
    AuthState(handle, if CredsKey in handle.contents then handle.contents[CredsKey] else initCreds)
  }

  /** `keys.get` on the shared handle. */
  method KeysGet<V>(st: AuthState<V>, category: string, ids: seq<string>) returns (data: map<string, V>)
    requires st.slot.Opened?
    ensures forall id :: id in data <==> id in ids && CompositeKey(category, id) in st.slot.contents
    ensures forall id :: id in data ==> data[id] == st.slot.contents[CompositeKey(category, id)]
  {
    data := Get(st.slot.contents, category, ids);
  }

  /** `keys.set` on the shared handle. */
  function KeysSet<V>(st: AuthState<V>, data: seq<CategoryUpdates<V>>): (t: AuthState<V>)
    requires st.slot.Opened?
    ensures t.slot.Opened? && t.slot.location == st.slot.location
    ensures t.creds == st.creds
  {
    st.(slot := st.slot.(contents := ApplyBatch(st.slot.contents, SetTasks(data))))
  }

  /** `keys.clear`: the database is emptied; the captured credentials stay. */
  function KeysClear<V>(st: AuthState<V>): (t: AuthState<V>)
    requires st.slot.Opened?
    ensures t.slot.Opened? && t.slot.location == st.slot.location
    ensures forall k :: k !in t.slot.contents
    ensures t.creds == st.creds
  {
    st.(slot := st.slot.(contents := map[]))
  }

  /** `saveCreds`: the captured credentials overwrite `"creds"`. */
  function SaveCreds<V>(st: AuthState<V>): (t: AuthState<V>)
    requires st.slot.Opened?
    ensures t.slot.Opened? && t.slot.location == st.slot.location
    ensures CredsKey in t.slot.contents && t.slot.contents[CredsKey] == st.creds
    ensures forall k :: k != CredsKey ==> (k in t.slot.contents <==> k in st.slot.contents)
    ensures forall k :: k != CredsKey && k in t.slot.contents ==> t.slot.contents[k] == st.slot.contents[k]
    ensures t.creds == st.creds
  {
    st.(slot := st.slot.(contents := st.slot.contents[CredsKey := st.creds]))
  }

  /** The handle is a singleton: once open, later calls reuse it whatever
      location or persisted contents they name, and see what earlier calls
      saved. */
  lemma SingletonReuse<V>(st: AuthState<V>, location: string, persisted: map<string, V>, initCreds: V)
    requires st.slot.Opened?
    ensures var again := CreateLevelDbAuthState(SaveCreds(st).slot, location, persisted, initCreds);
            again.slot.location == st.slot.location && again.creds == st.creds
  {
  }

  /** Because `keys.clear` keeps the captured credentials, saving after a
      clear writes the old credentials back; the newer store writes fresh
      ones instead. */
  lemma ClearThenSaveRestoresOldCreds<V>(st: AuthState<V>, initCreds: V)
    requires st.slot.Opened?
    ensures SaveCreds(KeysClear(st)).slot.contents == map[CredsKey := st.creds]
  {
  }
}

=== FILE: baileys_adapter.dfy ===
/** The WhatsApp client built on the socket transport: a session whose status
    is driven by connection updates, a health check derived from that status,
    the filter that turns inbound message batches into published messages,
    and the mapping of an outgoing message to one transport payload.

    The transport itself is abstract. The socket is a handle that is present
    or absent; a reconnect scheduled with a zero-delay timer is a pending
    count that a later `ReconnectDue` event consumes. */
module BaileysAdapter {
  import opened Wrappers
  import opened Types
  import opened AppErrors
  import opened AuthKeys
  import LevelDbAuthStore
  import Text

  datatype SocketStatus =
    | Connecting
    | Connected
    | ScanQr
    | Error
    | ErrorConnectionClosed
    | ErrorConnectionLost
    | ErrorConnectionReplaced
    | ErrorTimedOut

  /** The generic error status and its four refinements. */
  predicate IsErrorStatus(s: SocketStatus)
  {
    s.Error? || s.ErrorConnectionClosed? || s.ErrorConnectionLost? || s.ErrorConnectionReplaced? || s.ErrorTimedOut?
  }

  // Codes of the transport library's `DisconnectReason` enum. Two of its
  // members share the code 408.
  const ConnectionClosedCode := 428
  const ConnectionLostCode := 408
  const ConnectionReplacedCode := 440
  const TimedOutCode := 408
  const LoggedOutCode := 401

  /** The entries `errorMapping` is built from, in the order they are listed. */
  const ErrorMappingEntries: seq<(int, SocketStatus)> := [
    (ConnectionClosedCode, ErrorConnectionClosed),
    (ConnectionLostCode, ErrorConnectionLost),
    (ConnectionReplacedCode, ErrorConnectionReplaced),
    (TimedOutCode, ErrorTimedOut)
  ]

  /** No later entry has the same key as entry `j`. */
  predicate IsLastEntry(entries: seq<(int, SocketStatus)>, j: nat)
    requires j < |entries|
  {
    forall j' :: j < j' < |entries| ==> entries[j'].0 != entries[j].0
  }

  /** `new Map(entries)`: every key of the entries is present and maps to
      the value of its last entry. */
  function MapFromEntries(entries: seq<(int, SocketStatus)>): (m: map<int, SocketStatus>)
    ensures forall j :: 0 <= j < |entries| ==> entries[j].0 in m
    ensures forall j :: 0 <= j < |entries|
              && (forall j' :: j < j' < |entries| ==> entries[j'].0 != entries[j].0)
              ==> entries[j].0 in m && m[entries[j].0] == entries[j].1
  {
    if |entries| == 0 then map[]
    else
      var n := |entries| - 1;
      var front := MapFromEntries(entries[..n]);
      assert forall j :: 0 <= j < n ==> entries[..n][j] == entries[j];
      front[entries[n].0 := entries[n].1]
  }

  /** The map has no other keys: each of its keys maps to the value of the
      last entry with that key. */
  lemma {:induction false} MapFromEntriesKeys(entries: seq<(int, SocketStatus)>, k: int)
    requires k in MapFromEntries(entries)
    ensures exists j :: 0 <= j < |entries| && entries[j] == (k, MapFromEntries(entries)[k]) && IsLastEntry(entries, j)
  {
    var n := |entries| - 1;
    if k != entries[n].0 {
      MapFromEntriesKeys(entries[..n], k);
      var j :| 0 <= j < n && entries[..n][j] == (k, MapFromEntries(entries[..n])[k]) && IsLastEntry(entries[..n], j);
      assert entries[j] == entries[..n][j];
      assert IsLastEntry(entries, j) by {
        forall j' | j < j' < |entries|
          ensures entries[j'].0 != entries[j].0
        {
          if j' < n {
            assert entries[..n][j'] == entries[j'];
          }
        }
      }
    } else {
      assert IsLastEntry(entries, n);
    }
  }

  /** `errorMapping`: disconnect code to refined error status. */
  function ErrorMapping(): (m: map<int, SocketStatus>)
    ensures forall code :: code in m <==> code == 428 || code == 408 || code == 440
    ensures forall code :: code in m ==> IsErrorStatus(m[code]) && m[code] != Error && m[code] != ErrorConnectionLost
  {
    ErrorMappingContents();
    MapFromEntries(ErrorMappingEntries)
  }

  /** What the table holds once built: the second 408 entry replaced the
      first, so a 408 close reads as a timeout. */
  lemma ErrorMappingContents()
    ensures MapFromEntries(ErrorMappingEntries) == map[428 := ErrorConnectionClosed, 408 := ErrorTimedOut, 440 := ErrorConnectionReplaced]
  {
    var e := ErrorMappingEntries;
    assert e[..3][..2] == e[..2] && e[..2][..1] == e[..1] && e[..1][..0] == [];
    assert MapFromEntries(e[..1]) == map[428 := ErrorConnectionClosed];
    assert MapFromEntries(e[..2]) == map[428 := ErrorConnectionClosed, 408 := ErrorConnectionLost];
    assert MapFromEntries(e[..3]) == map[428 := ErrorConnectionClosed, 408 := ErrorConnectionLost, 440 := ErrorConnectionReplaced];
  }

  /** The status a close with a known code ends in. */
  function CloseStatus(code: int): (st: SocketStatus)
    ensures IsErrorStatus(st) && st != ErrorConnectionLost
    ensures st == Error <==> code != 428 && code != 408 && code != 440
  {
    if code in ErrorMapping() then ErrorMapping()[code] else Error
  }

  /** No close code leads to `ERROR_CONNECTION_LOST`; the logged-out code,
      like every code outside the table, leaves the generic `ERROR`. */
  lemma CloseStatusTable(code: int)
    ensures CloseStatus(code) != ErrorConnectionLost
    ensures IsErrorStatus(CloseStatus(code))
    ensures code == 428 ==> CloseStatus(code) == ErrorConnectionClosed
    ensures code == 408 ==> CloseStatus(code) == ErrorTimedOut
    ensures code == 440 ==> CloseStatus(code) == ErrorConnectionReplaced
    ensures code !in {428, 408, 440} ==> CloseStatus(code) == Error
    ensures CloseStatus(LoggedOutCode) == Error
  {
    ErrorMappingContents();
  }

  // ---------------------------------------------------------------- session

  /** The socket handle: absent, or the one made by the n-th `createSocket`. */
  datatype Socket = NoSocket | Socket(generation: nat)

  /** A client's state: its status, its authentication store, its socket, the
      reconnects scheduled but not yet run, and the messages published to
      listeners so far. */
  datatype Session<V> = Session(
    status: SocketStatus,
    store: LevelDbAuthStore.Store<V>,
    socket: Socket,
    pendingReconnects: nat,
    published: seq<Message>)

  /** A client once its store is open and its first socket made; the status
      starts at `CONNECTING`. */
  function Init<V>(db: map<string, V>, initCreds: V): (s: Session<V>)
    ensures s.status == Connecting && s.pendingReconnects == 0 && s.published == []
    ensures s.store.db == db && s.socket.Socket?
  {
    Session(Connecting, LevelDbAuthStore.Create(db, initCreds), Socket(0), 0, [])
  }

  datatype Phase = PhaseConnecting | PhaseOpen | PhaseClose

  /** A partial connection state from the transport. `disconnectCode` is the
      status code of the last disconnect's error, `None` when that error or
      its output is missing. */
  datatype ConnectionUpdate = ConnectionUpdate(qr: Option<string>, connection: Option<Phase>, disconnectCode: Option<int>)

  /** `handleConnectionUpdate`. A QR code wins over everything else in the
      update. `open` and `connecting` only set the status. A close sets
      `ERROR`, wipes the store on logout, refines the status from the table
      and schedules exactly one reconnect; when the close carries no code the
      handler throws before changing anything. */
  function HandleConnectionUpdate<V>(s: Session<V>, u: ConnectionUpdate, initCreds: V): (t: Session<V>)
    ensures t.socket == s.socket && t.published == s.published
    ensures Text.Truthy(u.qr) ==> t == s.(status := ScanQr)
    ensures !Text.Truthy(u.qr) && u.connection == Some(PhaseOpen) ==> t == s.(status := Connected)
    ensures !Text.Truthy(u.qr) && u.connection == Some(PhaseConnecting) ==> t == s.(status := Connecting)
    ensures !Text.Truthy(u.qr) && (u.connection.None? || u.disconnectCode.None?) ==> t.pendingReconnects == s.pendingReconnects
    ensures !Text.Truthy(u.qr) && u.connection.None? ==> t == s
    ensures !Text.Truthy(u.qr) && u.connection == Some(PhaseClose) && u.disconnectCode.Some? ==>
              && t.status == CloseStatus(u.disconnectCode.value)
              && t.pendingReconnects == s.pendingReconnects + 1
              && t.store == (if u.disconnectCode.value == LoggedOutCode
                             then LevelDbAuthStore.Clear(s.store, initCreds) else s.store)
    ensures !Text.Truthy(u.qr) && u.connection == Some(PhaseClose) && u.disconnectCode.None? ==> t == s
    ensures t.status != s.status ==> t.status != ErrorConnectionLost
  {
    if Text.Truthy(u.qr) then s.(status := ScanQr)
    else
      var s1 := if u.connection == Some(PhaseOpen) then s.(status := Connected) else s;
      var s2 := if u.connection == Some(PhaseConnecting) then s1.(status := Connecting) else s1;
      if u.connection != Some(PhaseClose) then s2
      else
        match u.disconnectCode
        case None => s2
        case Some(code) =>
          var s3 := s2.(status := Error);
          var s4 := if code == LoggedOutCode then s3.(store := LevelDbAuthStore.Clear(s3.store, initCreds)) else s3;
          var s5 := if code in ErrorMapping() then s4.(status := ErrorMapping()[code]) else s4;
          CloseStatusTable(code);
          s5.(pendingReconnects := s5.pendingReconnects + 1)
  }

  /** A logout close leaves an empty store, fresh credentials in memory and
      the generic `ERROR` status, so health reports an unexpected error rather
      than a logout until the transport asks for a new QR scan. */
  lemma LogoutWipesStore<V>(s: Session<V>, initCreds: V, category: string, ids: seq<string>)
    ensures var t := HandleConnectionUpdate(s, ConnectionUpdate(None, Some(PhaseClose), Some(LoggedOutCode)), initCreds);
            && KeysView(t.store.db, category, ids) == map[]
            && CredsKey !in t.store.db
            && t.store.creds == initCreds
            && t.status == Error
            && GetHealth(t.status).Failure? && GetHealth(t.status).error.kind.UnexpectedClass?
            && t.pendingReconnects == s.pendingReconnects + 1
  {
    CloseStatusTable(LoggedOutCode);
  }

  /** A raw inbound message as the transport delivers it; every field may be
      null or undefined. */
  datatype RawMessage = RawMessage(
    remoteJid: Option<string>,
    remoteJidAlt: Option<string>,
    fromMe: Option<bool>,
    conversation: Option<string>,
    extendedText: Option<string>)

  /** JavaScript `a || b` on optional strings. */
  function OrElse(a: Option<string>, b: Option<string>): (r: Option<string>)
    ensures Text.Truthy(a) ==> r == a
    ensures !Text.Truthy(a) ==> r == b
  {
    if Text.Truthy(a) then a else b
  }

  /** The record built from one raw message and checked against the
      string/boolean/string schema: `None` when the check fails. */
  function Extract(m: RawMessage): (r: Option<Message>)
    ensures r.Some? <==> OrElse(m.remoteJid, m.remoteJidAlt).Some? && OrElse(m.conversation, m.extendedText).Some?
    ensures r.Some? ==> r.value.chat == OrElse(m.remoteJid, m.remoteJidAlt).value
    ensures r.Some? ==> r.value.text == OrElse(m.conversation, m.extendedText).value
    ensures r.Some? ==> (r.value.fromMe <==> m.fromMe == Some(true) || Text.EndsWith(r.value.chat, "newsletter"))
  {
    var chat := OrElse(m.remoteJid, m.remoteJidAlt);
    var fromMe := if m.fromMe == Some(true) then Some(true)
                  else if chat.Some? then Some(Text.EndsWith(chat.value, "newsletter"))
                  else None;
    var text := OrElse(m.conversation, m.extendedText);
    if chat.Some? && fromMe.Some? && text.Some? then Some(Message(chat.value, fromMe.value, text.value))
    else None
  }

  /** The records published for a batch, in batch order, stopping for good at
      the first message that fails the schema: the longest prefix of the
      batch whose messages all pass. */
  function PublishUntilInvalid(msgs: seq<RawMessage>): (out: seq<Message>)
    ensures |out| <= |msgs|
    ensures forall i :: 0 <= i < |out| ==> Extract(msgs[i]) == Some(out[i])
    ensures |out| < |msgs| ==> Extract(msgs[|out|]).None?
  {
    if |msgs| == 0 then []
    else
      match Extract(msgs[0])
      case None => []
      case Some(m) =>
        var rest := PublishUntilInvalid(msgs[1..]);
        assert forall i :: 1 <= i < |msgs| ==> msgs[1..][i - 1] == msgs[i];
        [m] + rest
  }

  /** The `messages.upsert` handler: only `notify` batches publish
      anything. */
  function Intake(kind: string, msgs: seq<RawMessage>): (out: seq<Message>)
    ensures kind != "notify" ==> out == []
    ensures kind == "notify" ==> out == PublishUntilInvalid(msgs)
  {
    if kind != "notify" then [] else PublishUntilInvalid(msgs)
  }

  /** An invalid message hides every message after it, valid or not; a batch
      of valid messages is published whole. */
  lemma IntakeStopsAtFirstInvalid(msgs: seq<RawMessage>, j: nat)
    requires j < |msgs| && Extract(msgs[j]).None?
    ensures |Intake("notify", msgs)| <= j
  {
  }

  lemma IntakeAllValid(msgs: seq<RawMessage>)
    requires forall i :: 0 <= i < |msgs| ==> Extract(msgs[i]).Some?
    ensures |Intake("notify", msgs)| == |msgs|
  {
  }

  /** Events a session reacts to. `ReconnectDue` is the zero-delay timer of
      an earlier close firing. */
  datatype Event<V> =
    | ConnectionUpdated(update: ConnectionUpdate)
    | CredsUpdated(creds: V)
    | MessagesUpserted(kind: string, messages: seq<RawMessage>)
    | ReconnectDue

  /** `createSocket`, run by a due timer: a new socket replaces the old one,
      bound to the same store; the status waits for the next update. */
  function Reconnect<V>(s: Session<V>): (t: Session<V>)
    requires s.pendingReconnects > 0
    ensures t.pendingReconnects == s.pendingReconnects - 1
    ensures t.socket.Socket? && t.socket != s.socket
    ensures t.status == s.status && t.store == s.store && t.published == s.published
  {
    var next := if s.socket.Socket? then s.socket.generation + 1 else 0;
    s.(socket := Socket(next), pendingReconnects := s.pendingReconnects - 1)
  }

  /** One event handled. A credentials update is recorded in memory and
      saved under `"creds"`. A due timer with nothing pending cannot occur
      and changes nothing. */
  function Step<V>(s: Session<V>, e: Event<V>, initCreds: V): (t: Session<V>)
    ensures e.CredsUpdated? ==>
              && t.store.creds == e.creds
              && CredsKey in t.store.db && t.store.db[CredsKey] == e.creds
              && (forall k :: k != CredsKey ==> (k in t.store.db <==> k in s.store.db))
              && (forall k :: k != CredsKey && k in t.store.db ==> t.store.db[k] == s.store.db[k])
              && t.status == s.status && t.socket == s.socket
              && t.pendingReconnects == s.pendingReconnects && t.published == s.published
    ensures e.MessagesUpserted? ==>
              && t.published == s.published + Intake(e.kind, e.messages)
              && t.status == s.status && t.store == s.store && t.socket == s.socket
              && t.pendingReconnects == s.pendingReconnects
    ensures e.ReconnectDue? && s.pendingReconnects == 0 ==> t == s
    ensures e.ReconnectDue? && s.pendingReconnects > 0 ==>
              && t.pendingReconnects == s.pendingReconnects - 1 && t.socket.Socket? && t.socket != s.socket
              && t.status == s.status && t.store == s.store && t.published == s.published
    ensures e.ConnectionUpdated? ==> t.socket == s.socket && t.published == s.published
  {
    match e
    case ConnectionUpdated(u) => HandleConnectionUpdate(s, u, initCreds)
    case CredsUpdated(c) => s.(store := LevelDbAuthStore.SaveCreds(s.store.(creds := c)))
    case MessagesUpserted(kind, msgs) => s.(published := s.published + Intake(kind, msgs))
    case ReconnectDue => if s.pendingReconnects > 0 then Reconnect(s) else s
  }

  /** A run of events from a state. */
  function Run<V>(s: Session<V>, events: seq<Event<V>>, initCreds: V): Session<V>
    decreases |events|
  {
    if |events| == 0 then s else Run(Step(s, events[0], initCreds), events[1..], initCreds)
  }

  /** The close events of a run that carry a code, each of which schedules a
      reconnect. */
  function Closes<V>(events: seq<Event<V>>): nat
  {
    if |events| == 0 then 0
    else
      var e := events[0];
      var here := if e.ConnectionUpdated? && !Text.Truthy(e.update.qr) && e.update.connection == Some(PhaseClose)
                     && e.update.disconnectCode.Some? then 1 else 0;
      here + Closes(events[1..])
  }

  /** The reconnects a run starts. */
  function Fired<V>(s: Session<V>, events: seq<Event<V>>, initCreds: V): nat
    decreases |events|
  {
    if |events| == 0 then 0
    else
      var here := if events[0].ReconnectDue? && s.pendingReconnects > 0 then 1 else 0;
      here + Fired(Step(s, events[0], initCreds), events[1..], initCreds)
  }

  /** Exactly one reconnect per close: over any run, the reconnects pending
      at the end are those pending at the start, plus one per close, minus
      those started. */
  lemma {:induction false} ReconnectAccounting<V>(s: Session<V>, events: seq<Event<V>>, initCreds: V)
    ensures Run(s, events, initCreds).pendingReconnects + Fired(s, events, initCreds)
            == s.pendingReconnects + Closes(events)
    decreases |events|
  {
    if |events| > 0 {
      ReconnectAccounting(Step(s, events[0], initCreds), events[1..], initCreds);
    }
  }

  /** `ERROR_CONNECTION_LOST` is never entered: no run from a state with
      another status reaches it. */
  lemma {:induction false} ConnectionLostUnreachable<V>(s: Session<V>, events: seq<Event<V>>, initCreds: V)
    requires s.status != ErrorConnectionLost
    ensures Run(s, events, initCreds).status != ErrorConnectionLost
    decreases |events|
  {
    if |events| > 0 {
      ConnectionLostUnreachable(Step(s, events[0], initCreds), events[1..], initCreds);
    }
  }

  /** Published messages are only ever appended to. */
  lemma {:induction false} PublishedGrows<V>(s: Session<V>, events: seq<Event<V>>, initCreds: V)
    ensures var t := Run(s, events, initCreds);
            |s.published| <= |t.published| && t.published[..|s.published|] == s.published
    decreases |events|
  {
    if |events| > 0 {
      var s1 := Step(s, events[0], initCreds);
      assert s1.published[..|s.published|] == s.published;
      PublishedGrows(s1, events[1..], initCreds);
      var t := Run(s, events, initCreds);
      assert t.published[..|s.published|] == t.published[..|s1.published|][..|s.published|];
    }
  }

  // ---------------------------------------------------------------- health

  const ConnectingDetail := "Client is still connecting to WhatsApp."
  const ScanQrDetail := "Logged out of WhatsApp. Please login using the QR."
  const ConnectionLostDetail := "Connection lost while trying to connect to WhatsApp."
  const ConnectionClosedDetail := "Connection closed while trying to connect to WhatsApp."
  const ConnectionReplacedDetail := "Connection replaced while trying to connect to WhatsApp."
  const TimedOutDetail := "WhatsApp connection timed out."
  const UnexpectedDetail := "There was an unexpected error while connecting to WhatsApp."

  /** `getHealth`: `true` when connected; otherwise the error it throws. */
  function GetHealth(status: SocketStatus): (r: Result<bool, AppError>)
    ensures r.Success? <==> status == Connected
    ensures r.Success? ==> r.value
    ensures status == Connecting <==> r.Failure? && r.error.kind.NotReadyClass?
    ensures status == ScanQr <==> r.Failure? && r.error.kind.LoggedOutClass?
    ensures IsErrorStatus(status) <==> r.Failure? && r.error.kind.UnexpectedClass?
    ensures r.Failure? ==> FromSubclass(r.error)
  {
    match status
    case Connecting => Failure(WaClientNotReadyError(ConnectingDetail))
    case ScanQr => Failure(WaClientLoggedOutError(ScanQrDetail))
    case ErrorConnectionLost => Failure(WaClientUnexpectedError(ConnectionLostDetail))
    case ErrorConnectionClosed => Failure(WaClientUnexpectedError(ConnectionClosedDetail))
    case ErrorConnectionReplaced => Failure(WaClientUnexpectedError(ConnectionReplacedDetail))
    case ErrorTimedOut => Failure(WaClientUnexpectedError(TimedOutDetail))
    case Error => Failure(WaClientUnexpectedError(UnexpectedDetail))
    case Connected => Success(true)
  }

  /** Every status gets its own answer: the health result determines the
      status, so each error cause has a detail of its own. */
  lemma HealthDistinguishesStatuses(a: SocketStatus, b: SocketStatus)
    requires GetHealth(a) == GetHealth(b)
    ensures a == b
  {
  }

  // ---------------------------------------------------------------- sending

  /** What is handed to the socket's `sendMessage`. */
  datatype Payload =
    | TextPayload(text: string)
    | DocumentPayload(caption: Option<string>, mimetype: string, fileName: string, document: Bytes)

  /** How the transport's send ends: normally, by throwing an `Error`, or by
      throwing some other value. */
  datatype SendOutcome = Delivered | ThrowsError | ThrowsNonError

  /** One `sendMessage` call: the payload offered to the socket, if any, and
      whether the call throws. */
  datatype Delivery = Delivery(sent: Option<(string, Payload)>, result: Result<(), AppError>)

  /** The payload for a message: its text alone, or its attachment as a
      document captioned with the text when there is any text. */
  function PayloadFor(msg: OutgoingMessage): (p: Payload)
    ensures p.TextPayload? <==> msg.attachment.None?
  {
    match msg.attachment
    case None => TextPayload(msg.text)
    case Some(a) => DocumentPayload(if |msg.text| > 0 then Some(msg.text) else None, a.mimetype, a.filename, a.buffer)
  }

  /** Reading a payload back as the message it came from. */
  function MessageOf(chat: string, p: Payload): OutgoingMessage
  {
    match p
    case TextPayload(text) => OutgoingMessage(chat, text, None)
    case DocumentPayload(caption, mimetype, fileName, document) =>
      OutgoingMessage(chat, caption.GetOr(""), Some(Attachment(fileName, document, mimetype)))
  }

  /** The payload loses nothing: text, attachment name, type and content can
      all be read back, and a document carries a caption exactly when the
      text is not empty. */
  lemma PayloadRoundTrip(msg: OutgoingMessage)
    ensures MessageOf(msg.chat, PayloadFor(msg)) == msg
    ensures PayloadFor(msg).DocumentPayload? ==> (PayloadFor(msg).caption.Some? <==> msg.text != "")
  {
  }

  const SendFailedDetail := "Could not send message via Whatsapp"

  /** `sendMessage`: with no socket nothing is sent and nothing is thrown;
      otherwise exactly one payload is offered, and only an `Error` thrown by
      the transport is rethrown, as an unexpected client error. */
  function SendMessage(socket: Socket, outcome: SendOutcome, msg: OutgoingMessage): (d: Delivery)
    ensures d.sent.Some? <==> socket.Socket?
    ensures d.sent.Some? ==> d.sent.value.0 == msg.chat && MessageOf(msg.chat, d.sent.value.1) == msg
    ensures d.result.Failure? <==> socket.Socket? && outcome == ThrowsError
    ensures d.result.Failure? ==> d.result.error == WaClientUnexpectedError(SendFailedDetail)
  {
    PayloadRoundTrip(msg);
    match socket
    case NoSocket => Delivery(None, Success(()))
    case Socket(_) =>
      var sent := Some((msg.chat, PayloadFor(msg)));
      if outcome == ThrowsError then Delivery(sent, Failure(WaClientUnexpectedError(SendFailedDetail)))
      else Delivery(sent, Success(()))
  }
}

=== FILE: commands.dfy ===
/** Chat commands: a message this account wrote whose text starts with
    `/name` runs the command registered under the lower-cased name. The only
    command, `chat-id`, replies in the same chat with the chat's id. */
module Commands {
  import opened Wrappers
  import opened Types
  import Text

  /** The class `[0-9a-zA-Z-]`. */
  predicate IsCommandChar(c: char)
  {
    ('0' <= c <= '9') || ('a' <= c <= 'z') || ('A' <= c <= 'Z') || c == '-'
  }

  /** Length of the run of command characters that `s` starts with. */
  function CommandRun(s: string): (k: nat)
    ensures k <= |s|
    ensures forall j :: 0 <= j < k ==> IsCommandChar(s[j])
    ensures k < |s| ==> !IsCommandChar(s[k])
  {
    if |s| == 0 || !IsCommandChar(s[0]) then 0 else 1 + CommandRun(s[1..])
  }

  /** Capture group 1 of `/^\/([0-9a-zA-Z-]+)/` on `text`, or `None` when the
      expression does not match. */
  function MatchCommand(text: string): (r: Option<string>)
    ensures r.Some? <==> |text| >= 2 && text[0] == '/' && IsCommandChar(text[1])
  {
    if |text| >= 1 && text[0] == '/' then
      var k := CommandRun(text[1..]);
      if k == 0 then None else Some(text[1..1 + k])
    else None
  }

  /** Reference reading of the expression: `text` is a slash, then `name`, a
      non-empty run of command characters, then the end or a character the
      run cannot take. */
  predicate IsMatch(text: string, name: string)
  {
    && |name| >= 1
    && Text.StartsWith(text, "/" + name)
    && (forall j :: 0 <= j < |name| ==> IsCommandChar(name[j]))
    && (|text| == |name| + 1 || !IsCommandChar(text[|name| + 1]))
  }

  /** A run of `n` command characters followed by the end or a character
      outside the class is the run `CommandRun` measures. */
  lemma {:induction false} CommandRunIs(s: string, n: nat)
    requires n <= |s|
    requires forall j :: 0 <= j < n ==> IsCommandChar(s[j])
    requires n == |s| || !IsCommandChar(s[n])
    ensures CommandRun(s) == n
  {
    if n > 0 {
      CommandRunIs(s[1..], n - 1);
    }
  }

  /** The expression finds exactly the maximal run: `MatchCommand` returns
      `name` if and only if `text` matches the reference reading with it. */
  lemma MatchCommandIsMaximalRun(text: string, name: string)
    ensures MatchCommand(text) == Some(name) <==> IsMatch(text, name)
  {
    if IsMatch(text, name) {
      assert text[0] == ("/" + name)[0];
      forall j | 0 <= j < |name|
        ensures text[1..][j] == name[j]
      {
        assert text[1 + j] == ("/" + name)[1 + j];
      }
      CommandRunIs(text[1..], |name|);
      assert text[1..1 + |name|] == name;
    }
    if MatchCommand(text) == Some(name) {
      var k := CommandRun(text[1..]);
      assert name == text[1..1 + k];
      assert text[..|name| + 1] == "/" + name;
      assert forall j :: 0 <= j < |name| ==> name[j] == text[1..][j];
      if |text| > |name| + 1 {
        assert text[|name| + 1] == text[1..][k];
      }
    }
  }

  /** The registered commands. */
  datatype Command = GetChatId

  const ChatIdName := "chat-id"

  const Registry: map<string, Command> := map[ChatIdName := GetChatId]

  const ChatIdPrefix := "This chat id is `"

  /** `getChatIdCommand`: one reply, to the same chat, without attachment,
      quoting the chat id in backticks. */
  function GetChatIdCommand(msg: Message): (out: OutgoingMessage)
    ensures out.chat == msg.chat && out.attachment.None?
    ensures Text.StartsWith(out.text, ChatIdPrefix) && Text.EndsWith(out.text, "`")
    ensures |out.text| == |ChatIdPrefix| + |msg.chat| + 1
  {
    OutgoingMessage(msg.chat, ChatIdPrefix + msg.chat + "`", None)
  }

  /** The reply quotes the chat id verbatim: it can be read back from between
      the prefix and the closing backtick. */
  lemma ChatIdReplyQuotesChat(msg: Message)
    ensures var t := GetChatIdCommand(msg).text;
            t[|ChatIdPrefix|..|t| - 1] == msg.chat
  {
  }

  /** What running a command sends. */
  function Run(cmd: Command, msg: Message): OutgoingMessage
  {
    match cmd
    case GetChatId => GetChatIdCommand(msg)
  }

  /** The listener: the reply a message triggers, if any. Only messages this
      account wrote are considered, and the matched name is lower-cased
      before the lookup. */
  function HandleMessage(msg: Message): (r: Option<OutgoingMessage>)
    ensures r.Some? <==>
              msg.fromMe && MatchCommand(msg.text).Some? && Text.ToLower(MatchCommand(msg.text).value) in Registry
    ensures r.Some? ==> r.value == Run(Registry[Text.ToLower(MatchCommand(msg.text).value)], msg)
    ensures r.Some? ==> r.value == GetChatIdCommand(msg)
  {
    if !msg.fromMe then None
    else
      match MatchCommand(msg.text)
      case None => None
      case Some(name) =>
        var command := Text.ToLower(name);
        if command in Registry then Some(Run(Registry[command], msg)) else None
  }

  /** A message written by this account whose text starts with `/` and a
      maximal run that lower-cases to `chat-id` is answered with its chat
      id. */
  lemma ChatIdTriggers(msg: Message, name: string)
    requires msg.fromMe && IsMatch(msg.text, name) && Text.ToLower(name) == ChatIdName
    ensures HandleMessage(msg) == Some(GetChatIdCommand(msg))
  {
    MatchCommandIsMaximalRun(msg.text, name);
  }

  /** Upper case still triggers: `/CHAT-ID`. */
  lemma UpperCaseTriggers(chat: string)
    ensures HandleMessage(Message(chat, true, "/CHAT-ID")) == Some(GetChatIdCommand(Message(chat, true, "/CHAT-ID")))
  {
    var name := "CHAT-ID";
    var low := Text.ToLower(name);
    assert forall k :: 0 <= k < |name| ==> low[k] == ChatIdName[k];
    assert low == ChatIdName;
    assert "/CHAT-ID" == "/" + name;
    assert IsMatch("/CHAT-ID", name);
    ChatIdTriggers(Message(chat, true, "/CHAT-ID"), name);
  }

  /** Words after the name are ignored: `/chat-id now`. */
  lemma TrailingWordsIgnored(chat: string)
    ensures HandleMessage(Message(chat, true, "/chat-id now")) == Some(GetChatIdCommand(Message(chat, true, "/chat-id now")))
  {
    var name := ChatIdName;
    var low := Text.ToLower(name);
    assert forall k :: 0 <= k < |name| ==> low[k] == ChatIdName[k];
    assert low == ChatIdName;
    assert "/chat-id now"[..8] == "/" + name;
    assert IsMatch("/chat-id now", name);
    ChatIdTriggers(Message(chat, true, "/chat-id now"), name);
  }

  /** The run is maximal, so a longer name is a different command:
      `/chat-idx` does nothing. */
  lemma LongerNameIgnored(chat: string)
    ensures HandleMessage(Message(chat, true, "/chat-idx")).None?
  {
    var name := "chat-idx";
    assert "/chat-idx"[..9] == "/" + name;
    MatchCommandIsMaximalRun("/chat-idx", name);
    assert |Text.ToLower(name)| == 8;
  }

  /** Messages from others, and texts without the slash, do nothing. */
  lemma NotOwnOrNoSlashIgnored(chat: string)
    ensures HandleMessage(Message(chat, false, "/chat-id")).None?
    ensures HandleMessage(Message(chat, true, "chat-id")).None?
  {
  }

  /** The listener over a stream of published messages: the replies sent, in
      order. */
  function Replies(msgs: seq<Message>): (out: seq<OutgoingMessage>)
    ensures |out| <= |msgs|
  {
    if |msgs| == 0 then []
    else
      match HandleMessage(msgs[0])
      case Some(reply) => [reply] + Replies(msgs[1..])
      case None => Replies(msgs[1..])
  }

  /** The listener runs message by message: the replies to a concatenated
      stream are the replies to each part, in order. */
  lemma {:induction false} RepliesAppend(a: seq<Message>, b: seq<Message>)
    ensures Replies(a + b) == Replies(a) + Replies(b)
    decreases |a|
  {
    if |a| == 0 {
      assert a + b == b;
    } else {
      assert (a + b)[0] == a[0];
      assert (a + b)[1..] == a[1..] + b;
      RepliesAppend(a[1..], b);
    }
  }

  /** Every message that triggers a reply gets it, in stream order: the
      reply to message `j` comes right after the replies to the messages
      before it. */
  lemma RepliesComplete(msgs: seq<Message>, j: nat)
    requires j < |msgs| && HandleMessage(msgs[j]).Some?
    ensures |Replies(msgs[..j])| < |Replies(msgs)|
    ensures Replies(msgs)[|Replies(msgs[..j])|] == HandleMessage(msgs[j]).value
  {
    assert msgs == msgs[..j] + ([msgs[j]] + msgs[j + 1..]);
    RepliesAppend(msgs[..j], [msgs[j]] + msgs[j + 1..]);
    assert ([msgs[j]] + msgs[j + 1..])[1..] == msgs[j + 1..];
  }

  /** Every reply answers a message that triggers a command: a message this
      account wrote, in the chat it came from. A message that triggers
      nothing gets no reply. */
  lemma {:induction false} RepliesAnswerOwnMessages(msgs: seq<Message>, k: nat)
    requires k < |Replies(msgs)|
    ensures exists j :: 0 <= j < |msgs| && HandleMessage(msgs[j]) == Some(Replies(msgs)[k])
              && msgs[j].fromMe && Replies(msgs)[k] == GetChatIdCommand(msgs[j])
  {
    var rest := Replies(msgs[1..]);
    match HandleMessage(msgs[0])
    case Some(reply) =>
      if k == 0 {
        assert HandleMessage(msgs[0]) == Some(Replies(msgs)[0]);
      } else {
        RepliesAnswerOwnMessages(msgs[1..], k - 1);
        var j :| 0 <= j < |msgs[1..]| && HandleMessage(msgs[1..][j]) == Some(rest[k - 1]);
        assert msgs[1 + j] == msgs[1..][j];
      }
    case None =>
      RepliesAnswerOwnMessages(msgs[1..], k);
      var j :| 0 <= j < |msgs[1..]| && HandleMessage(msgs[1..][j]) == Some(rest[k]);
      assert msgs[1 + j] == msgs[1..][j];
  }

  /** On one message the listener answers exactly what `HandleMessage`
      gives, and nothing when it gives nothing; with `RepliesAppend` this
      fixes `Replies` on every stream. */
  lemma RepliesOne(m: Message)
    ensures HandleMessage(m).Some? ==> Replies([m]) == [HandleMessage(m).value]
    ensures HandleMessage(m).None? ==> Replies([m]) == []
  {
    assert [m][1..] == [];
  }
}

=== FILE: controller.dfy ===
/** The notification endpoint: the request body after its schema transforms,
    the text built from title and message, the expansion of attachments into
    one send sequence per chat, and the health endpoint. */
module Controller {
  import opened Wrappers
  import opened Types
  import opened AppErrors
  import Text
  import ErrorHandlers
  import BaileysAdapter

  /** An attachment as the request carries it. */
  datatype AttachmentReq = AttachmentReq(filename: string, base64: string, mimetype: string)

  /** A request body that satisfies the schema, before its transforms. */
  datatype NotificationReq = NotificationReq(title: string, message: string,
                                             attachments: seq<AttachmentReq>, chats: string)

  /** The body after the schema's transforms: attachments decoded, chats
      split. */
  datatype Notification = Notification(title: string, message: string,
                                       attachments: seq<Attachment>, chats: seq<string>)

  /** The attachment transform; `decode` stands for base64 decoding. */
  function ToAttachment(a: AttachmentReq, decode: string -> Bytes): (r: Attachment)
    ensures r.filename == a.filename && r.mimetype == a.mimetype && r.buffer == decode(a.base64)
  {
    Attachment(a.filename, decode(a.base64), a.mimetype)
  }

  /** The schema's transforms: every attachment decoded in place and the chat
      list cut at each comma into separator-free ids. */
  function Transform(req: NotificationReq, decode: string -> Bytes): (n: Notification)
    ensures n.title == req.title && n.message == req.message
    ensures |n.attachments| == |req.attachments|
    ensures forall k :: 0 <= k < |n.attachments| ==> n.attachments[k] == ToAttachment(req.attachments[k], decode)
    ensures |n.chats| >= 1
    ensures forall k :: 0 <= k < |n.chats| ==> ',' !in n.chats[k]
  {
    Notification(req.title, req.message,
                 seq(|req.attachments|, k requires 0 <= k < |req.attachments| =>
                       ToAttachment(req.attachments[k], decode)),
                 Text.Split(req.chats, ','))
  }

  /** The chat ids lose nothing of the field they came from: joined back with
      commas they give the field again. */
  lemma ChatsRoundTrip(req: NotificationReq, decode: string -> Bytes)
    ensures Text.Join(Transform(req, decode).chats, ',') == req.chats
  {
    Text.JoinSplit(req.chats, ',');
  }

  /** The message text: the title in bold on its own line above the message,
      or the message alone when the title is empty. */
  function NotificationText(title: string, message: string): (t: string)
    ensures Text.EndsWith(t, message)
    ensures |title| == 0 ==> t == message
    ensures |title| > 0 ==> Text.StartsWith(t, "*" + title + "*\n") && |t| == |title| + 3 + |message|
  {
    if |title| > 0 then "*" + title + "*\n" + message else message
  }

  /** The sends for one chat: the text with the first attachment (or none),
      then every further attachment in order with an empty text. */
  function ChatMessages(chat: string, text: string, atts: seq<Attachment>): (ms: seq<OutgoingMessage>)
    ensures |ms| == if |atts| == 0 then 1 else |atts|
    ensures forall k :: 0 <= k < |ms| ==> ms[k].chat == chat
    ensures ms[0].text == text
    ensures ms[0].attachment == if |atts| == 0 then None else Some(atts[0])
    ensures forall k :: 1 <= k < |ms| ==> ms[k].text == "" && ms[k].attachment == Some(atts[k])
  {
    if |atts| == 0 then [OutgoingMessage(chat, text, None)]
    else [OutgoingMessage(chat, text, Some(atts[0]))]
         + seq(|atts| - 1, k requires 0 <= k < |atts| - 1 => OutgoingMessage(chat, "", Some(atts[k + 1])))
  }

  /** The attachments a sequence of sends carries, in order. */
  function Carried(ms: seq<OutgoingMessage>): seq<Attachment>
  {
    if |ms| == 0 then []
    else (if ms[0].attachment.Some? then [ms[0].attachment.value] else []) + Carried(ms[1..])
  }

  /** The texts of a sequence of sends, concatenated. */
  function Texts(ms: seq<OutgoingMessage>): string
  {
    if |ms| == 0 then "" else ms[0].text + Texts(ms[1..])
  }

  lemma {:induction false} CarriedAll(ms: seq<OutgoingMessage>)
    requires forall k :: 0 <= k < |ms| ==> ms[k].attachment.Some? && ms[k].text == ""
    ensures Carried(ms) == seq(|ms|, k requires 0 <= k < |ms| => ms[k].attachment.value)
    ensures Texts(ms) == ""
  {
    if |ms| > 0 {
      CarriedAll(ms[1..]);
    }
  }

  /** A chat's sends lose nothing and duplicate nothing: together they carry
      every attachment exactly once, in request order, and the text exactly
      once. */
  lemma ChatMessagesLoseNothing(chat: string, text: string, atts: seq<Attachment>)
    ensures Carried(ChatMessages(chat, text, atts)) == atts
    ensures Texts(ChatMessages(chat, text, atts)) == text
  {
    var ms := ChatMessages(chat, text, atts);
    if |atts| > 0 {
      CarriedAll(ms[1..]);
      assert ms == [ms[0]] + ms[1..];
    }
  }

  // ---------------------------------------------------------------- one chat

  /** What the socket was offered for one chat, and how that chat's sequence
      ended. */
  datatype ChatDelivery = ChatDelivery(sent: seq<(string, BaileysAdapter.Payload)>, result: Result<(), AppError>)

  /** The first send from `i` on whose transport call throws an `Error`, or
      `n` when none does. */
  function FirstThrow(outcome: nat -> BaileysAdapter.SendOutcome, i: nat, n: nat): (f: nat)
    requires i <= n
    ensures i <= f <= n
    ensures forall k :: i <= k < f ==> outcome(k) != BaileysAdapter.ThrowsError
    ensures f < n ==> outcome(f) == BaileysAdapter.ThrowsError
    decreases n - i
  {
    if i == n || outcome(i) == BaileysAdapter.ThrowsError then i else FirstThrow(outcome, i + 1, n)
  }

  /** One chat's sends from position `i` on, each awaited before the next;
      `outcome(k)` is how the transport ends send `k`. */
  function DeliverFrom(socket: BaileysAdapter.Socket, outcome: nat -> BaileysAdapter.SendOutcome,
                       ms: seq<OutgoingMessage>, i: nat): (d: ChatDelivery)
    requires i <= |ms|
    ensures socket.NoSocket? ==> d == ChatDelivery([], Success(()))
    ensures socket.Socket? ==>
              var f := FirstThrow(outcome, i, |ms|);
              && |d.sent| == (if f < |ms| then f + 1 else |ms|) - i
              && forall k :: 0 <= k < |d.sent| ==>
                   d.sent[k] == (ms[i + k].chat, BaileysAdapter.PayloadFor(ms[i + k]))
    ensures d.result.Failure? <==> socket.Socket? && FirstThrow(outcome, i, |ms|) < |ms|
    ensures d.result.Failure? ==> d.result.error == WaClientUnexpectedError(BaileysAdapter.SendFailedDetail)
    decreases |ms| - i
  {
    if i == |ms| then ChatDelivery([], Success(()))
    else
      var one := BaileysAdapter.SendMessage(socket, outcome(i), ms[i]);
      var head := if one.sent.Some? then [one.sent.value] else [];
      if one.result.Failure? then ChatDelivery(head, one.result)
      else
        var rest := DeliverFrom(socket, outcome, ms, i + 1);
        ChatDelivery(head + rest.sent, rest.result)
  }

  /** How the sends of chat `c` end. */
  function ChatOutcome(outcome: (nat, nat) -> BaileysAdapter.SendOutcome, c: nat): nat -> BaileysAdapter.SendOutcome
  {
    (k: nat) => outcome(c, k)
  }

  // ---------------------------------------------------------------- endpoints

  const NotificationSent := "Notification sent"
  const Up := "UP"

  /** `GET /health`: `UP` when the client is healthy, otherwise the health
      error is thrown to the error pipeline. */
  function HealthEndpoint(status: BaileysAdapter.SocketStatus): (r: Result<string, ErrorHandlers.Thrown>)
    ensures r.Success? <==> status == BaileysAdapter.Connected
    ensures r.Success? ==> r.value == Up
    ensures r.Failure? ==> r.error == ErrorHandlers.AppThrown(BaileysAdapter.GetHealth(status).error)
  {
    match BaileysAdapter.GetHealth(status)
    case Success(_) => Success(Up)
    case Failure(e) => Failure(ErrorHandlers.AppThrown(e))
  }

  /** The outcome of `POST /`: what each chat was sent (one entry per chat
      id, in order) and the response or the value thrown. */
  datatype NotificationOutcome = NotificationOutcome(deliveries: seq<ChatDelivery>,
                                                     response: Result<string, ErrorHandlers.Thrown>)

  /** `POST /`. Health is checked first, then the body (`body` is the schema
      check's verdict: the body, or zod's issues). Every chat's sequence runs
      to its own end; the request fails when any chat's does, and since every
      send failure is the same error the first rejection is the same whichever
      chat it came from. `outcome(c, k)` is how send `k` of chat `c` ends. */
  function SendNotification<V>(s: BaileysAdapter.Session<V>,
                               body: Result<NotificationReq, seq<ErrorHandlers.Issue>>,
                               decode: string -> Bytes,
                               outcome: (nat, nat) -> BaileysAdapter.SendOutcome): (o: NotificationOutcome)
    ensures s.status != BaileysAdapter.Connected ==>
              o == NotificationOutcome([], Failure(ErrorHandlers.AppThrown(BaileysAdapter.GetHealth(s.status).error)))
    ensures s.status == BaileysAdapter.Connected && body.Failure? ==>
              o == NotificationOutcome([], Failure(ErrorHandlers.ZodThrown(body.error)))
    ensures s.status == BaileysAdapter.Connected && body.Success? ==>
              var n := Transform(body.value, decode);
              && |o.deliveries| == |n.chats|
              && (forall c :: 0 <= c < |n.chats| ==>
                    o.deliveries[c] == DeliverFrom(s.socket, ChatOutcome(outcome, c),
                                                   ChatMessages(n.chats[c], NotificationText(n.title, n.message), n.attachments), 0))
              && (o.response.Success? <==> forall c :: 0 <= c < |o.deliveries| ==> o.deliveries[c].result.Success?)
              && (o.response.Success? ==> o.response.value == NotificationSent)
              && (o.response.Failure? ==>
                    o.response.error == ErrorHandlers.AppThrown(WaClientUnexpectedError(BaileysAdapter.SendFailedDetail)))
  {
    match BaileysAdapter.GetHealth(s.status)
    case Failure(e) => NotificationOutcome([], Failure(ErrorHandlers.AppThrown(e)))
    case Success(_) =>
      match body
      case Failure(issues) => NotificationOutcome([], Failure(ErrorHandlers.ZodThrown(issues)))
      case Success(req) =>
        var n := Transform(req, decode);
        var text := NotificationText(n.title, n.message);
        var deliveries := seq(|n.chats|, c requires 0 <= c < |n.chats| =>
                                DeliverFrom(s.socket, ChatOutcome(outcome, c), ChatMessages(n.chats[c], text, n.attachments), 0));
        if forall c :: 0 <= c < |deliveries| ==> deliveries[c].result.Success? then
          NotificationOutcome(deliveries, Success(NotificationSent))
        else
          NotificationOutcome(deliveries,
                              Failure(ErrorHandlers.AppThrown(WaClientUnexpectedError(BaileysAdapter.SendFailedDetail))))
  }

  /** End to end on a healthy client whose transport never throws: every
      chat id receives, in order, the text with the first attachment and then
      each further attachment, and the request succeeds. */
  lemma HealthyFanOut<V>(s: BaileysAdapter.Session<V>, req: NotificationReq, decode: string -> Bytes,
                         outcome: (nat, nat) -> BaileysAdapter.SendOutcome, c: nat)
    requires s.status == BaileysAdapter.Connected && s.socket.Socket?
    requires forall a: nat, b: nat :: outcome(a, b) != BaileysAdapter.ThrowsError
    requires c < |Transform(req, decode).chats|
    ensures var o := SendNotification(s, Success(req), decode, outcome);
            var n := Transform(req, decode);
            var ms := ChatMessages(n.chats[c], NotificationText(req.title, req.message), n.attachments);
            && o.response == Success(NotificationSent)
            && o.deliveries[c].sent == seq(|ms|, k requires 0 <= k < |ms| => (n.chats[c], BaileysAdapter.PayloadFor(ms[k])))
  {
    var o := SendNotification(s, Success(req), decode, outcome);
    var n := Transform(req, decode);
    forall c' | 0 <= c' < |n.chats|
      ensures o.deliveries[c'].result.Success?
    {
      var ms' := ChatMessages(n.chats[c'], NotificationText(n.title, n.message), n.attachments);
      assert FirstThrow(ChatOutcome(outcome, c'), 0, |ms'|) == |ms'|;
    }
  }
}

=== FILE: error_handlers.dfy ===
/** The three Express error middlewares and the order the server installs
    them in. A middleware hands exactly one value to `next`; here that is the
    function's result. */
module ErrorHandlers {
  import opened Wrappers
  import opened AppErrors
  import Text

  /** A property value as the request-body schemas see it. JavaScript numbers
      are modelled by integers. */
  datatype JsValue = JsString(s: string) | JsNumber(n: int) | JsBool(b: bool) | JsOther

  /** One schema violation reported by zod: its message and the path of the
      offending field. */
  datatype Issue = Issue(message: string, path: seq<string>)

  /** A value thrown inside the HTTP pipeline: an application error, a zod
      validation error, or anything else, seen through the properties a
      schema can read from it. */
  datatype Thrown =
    | AppThrown(error: AppError)
    | ZodThrown(issues: seq<Issue>)
    | OtherThrown(props: map<string, JsValue>)

  predicate HasString(props: map<string, JsValue>, key: string)
  {
    key in props && props[key].JsString?
  }

  predicate HasNumber(props: map<string, JsValue>, key: string)
  {
    key in props && props[key].JsNumber?
  }

  predicate HasBool(props: map<string, JsValue>, key: string)
  {
    key in props && props[key].JsBool?
  }

  /** The shape of an error raised by the body parser (`stack` is accepted
      whatever it holds, even when missing). */
  predicate IsExpressError(props: map<string, JsValue>)
  {
    && HasString(props, "type")
    && HasString(props, "message")
    && HasBool(props, "expose")
    && HasNumber(props, "statusCode")
    && HasNumber(props, "status")
  }

  /** A body larger than the configured limit. */
  predicate IsPayloadTooLarge(props: map<string, JsValue>)
  {
    && IsExpressError(props)
    && props["type"] == JsString("entity.too.large")
    && HasNumber(props, "expected")
    && HasNumber(props, "length")
    && HasNumber(props, "limit")
  }

  /** A body that is not valid JSON. */
  predicate IsJsonParseFailed(props: map<string, JsValue>)
  {
    && IsExpressError(props)
    && props["type"] == JsString("entity.parse.failed")
    && HasString(props, "body")
  }

  /** The detail of the error a too-large body is turned into. */
  function TooLargeDetail(length: int, limit: int): string
  {
    "The request body is " + Text.IntToString(length)
    + " bytes, which exceeds the max of " + Text.IntToString(limit) + " bytes."
  }

  /** The two body-parser shapes never both match: their `type` literals
      differ. */
  lemma BodyParserShapesExclusive(props: map<string, JsValue>)
    ensures !(IsPayloadTooLarge(props) && IsJsonParseFailed(props))
  {
  }

  /** `jsonErrorHandler`: a too-large body becomes a `PayloadTooLargeError`
      quoting its length and limit, an unparsable body becomes a
      `ValidationError` carrying the parser's message and no field errors,
      and anything else is passed on unchanged. */
  function JsonErrorHandler(err: Thrown): (next: Thrown)
    ensures err.OtherThrown? && IsPayloadTooLarge(err.props) ==>
              next == AppThrown(PayloadTooLargeError(
                        TooLargeDetail(err.props["length"].n, err.props["limit"].n)))
    ensures err.OtherThrown? && IsJsonParseFailed(err.props) ==>
              next == AppThrown(ValidationErrorOf(err.props["message"].s))
    ensures next != err <==> err.OtherThrown? && (IsPayloadTooLarge(err.props) || IsJsonParseFailed(err.props))
  {
    match err
    case OtherThrown(props) =>
      if IsPayloadTooLarge(props) then
        AppThrown(PayloadTooLargeError(TooLargeDetail(props["length"].n, props["limit"].n)))
      else if IsJsonParseFailed(props) then
        AppThrown(ValidationError(props["message"].s, []))
      else err
    case _ => err
  }

  const SchemaMismatchDetail := "Yout request does not satify the defined schema."

  /** `zodErrorHandler`: a zod error becomes a `ValidationError` with a fixed
      detail and one field error per issue, in issue order, each pointing at
      its issue's path; anything else is passed on unchanged.
      `formatPointer` stands for the JSON-pointer formatting library. */
  function ZodErrorHandler(err: Thrown, formatPointer: seq<string> -> string): (next: Thrown)
    ensures !err.ZodThrown? ==> next == err
    ensures err.ZodThrown? ==>
              && next.AppThrown?
              && next.error.kind.ValidationClass?
              && next.error == ValidationError(SchemaMismatchDetail, next.error.kind.errors)
              && |next.error.kind.errors| == |err.issues|
              && forall k :: 0 <= k < |err.issues| ==>
                   next.error.kind.errors[k]
                   == FieldError(err.issues[k].message, formatPointer(err.issues[k].path))
  {
    match err
    case ZodThrown(issues) =>
      var errors := seq(|issues|, k requires 0 <= k < |issues| =>
                          FieldError(issues[k].message, formatPointer(issues[k].path)));
      AppThrown(ValidationError(SchemaMismatchDetail, errors))
    case _ => err
  }

  /** The JSON problem body the server answers an error with. `errors` is
      absent (`None`) unless a validation error lists field errors. */
  datatype ApiError = ApiError(status: int, errorType: string, title: string, detail: string,
                               errors: Option<seq<FieldError>>)

  datatype HttpResponse = HttpResponse(httpStatus: int, body: ApiError)

  /** The three WhatsApp client error classes. */
  predicate IsClientError(e: AppError)
  {
    e.kind.LoggedOutClass? || e.kind.NotReadyClass? || e.kind.UnexpectedClass?
  }

  const UnknownType := "unknown-error"
  const UnknownTitle := "Unknown error"
  const UnknownDetail := "Internal server error caused by an unhandled exception"

  /** `globalErrorHandler`: the response for any error that reaches the end
      of the pipeline. */
  function GlobalErrorHandler(err: Thrown): (res: HttpResponse)
    ensures res.httpStatus == res.body.status
    ensures res.body.status == 500 <==> !err.AppThrown? || err.error.kind.BaseClass?
    ensures res.body.status == 400 <==> err.AppThrown? && err.error.kind.ValidationClass?
    ensures res.body.status == 413 <==> err.AppThrown? && err.error.kind.PayloadTooLargeClass?
    ensures res.body.status == 503 <==> err.AppThrown? && IsClientError(err.error)
    ensures err.AppThrown? ==>
              res.body.errorType == err.error.errorType && res.body.title == err.error.title
              && res.body.detail == err.error.detail
    ensures !err.AppThrown? ==>
              res.body == ApiError(500, UnknownType, UnknownTitle, UnknownDetail, None)
    ensures res.body.errors.Some? <==>
              err.AppThrown? && err.error.kind.ValidationClass? && |err.error.kind.errors| > 0
    ensures res.body.errors.Some? ==> res.body.errors.value == err.error.kind.errors
  {
    var json := ApiError(500, UnknownType, UnknownTitle, UnknownDetail, None);
    var json := if err.AppThrown? && err.error.kind.ValidationClass? then
                  json.(status := 400,
                        errors := if |err.error.kind.errors| > 0 then Some(err.error.kind.errors) else None)
                else json;
    var json := if err.AppThrown? && err.error.kind.PayloadTooLargeClass? then json.(status := 413) else json;
    var json := if err.AppThrown? && err.error.kind.LoggedOutClass? then json.(status := 503) else json;
    var json := if err.AppThrown? && err.error.kind.NotReadyClass? then json.(status := 503) else json;
    var json := if err.AppThrown? && err.error.kind.UnexpectedClass? then json.(status := 503) else json;
    var json := if err.AppThrown? then
                  json.(errorType := err.error.errorType, title := err.error.title, detail := err.error.detail)
                else json;
    HttpResponse(json.status, json)
  }

  /** An error raised by the JSON body parser passes the body-parser handler,
      skips the routes, and then meets the zod handler and the global one. */
  function BodyParserErrorResponse(err: Thrown, formatPointer: seq<string> -> string): (res: HttpResponse)
    ensures res.httpStatus == res.body.status
    ensures err.OtherThrown? && IsPayloadTooLarge(err.props) ==>
              res.httpStatus == 413 && res.body.detail == TooLargeDetail(err.props["length"].n, err.props["limit"].n)
    ensures err.OtherThrown? && IsJsonParseFailed(err.props) ==>
              res.httpStatus == 400 && res.body.detail == err.props["message"].s && res.body.errors.None?
    ensures err.AppThrown? || (err.OtherThrown? && !IsPayloadTooLarge(err.props) && !IsJsonParseFailed(err.props)) ==>
              res == GlobalErrorHandler(err)
  {
    GlobalErrorHandler(ZodErrorHandler(JsonErrorHandler(err), formatPointer))
  }

  /** An error raised by a route handler meets the zod handler and the global
      one. */
  function RouteErrorResponse(err: Thrown, formatPointer: seq<string> -> string): (res: HttpResponse)
    ensures res.httpStatus == res.body.status
    ensures !err.ZodThrown? ==> res == GlobalErrorHandler(err)
    ensures err.OtherThrown? ==> res.httpStatus == 500
    ensures err.ZodThrown? ==>
              res.httpStatus == 400 && res.body.detail == SchemaMismatchDetail
              && (res.body.errors.Some? <==> |err.issues| > 0)
  {
    GlobalErrorHandler(ZodErrorHandler(err, formatPointer))
  }

  /** End to end over the body-parser path: a too-large body is answered 413
      with the limit in the detail, an unparsable one 400 with no field list,
      and any other non-application value 500 with the fixed unknown-error
      body. */
  lemma BodyParserErrorOutcomes(props: map<string, JsValue>, formatPointer: seq<string> -> string)
    ensures var res := BodyParserErrorResponse(OtherThrown(props), formatPointer);
            && (IsPayloadTooLarge(props) ==>
                  res.httpStatus == 413 && res.body.errorType == PayloadTooLargeType
                  && res.body.detail == TooLargeDetail(props["length"].n, props["limit"].n))
            && (IsJsonParseFailed(props) ==>
                  res.httpStatus == 400 && res.body.errorType == ValidationType
                  && res.body.detail == props["message"].s && res.body.errors.None?)
            && (!IsPayloadTooLarge(props) && !IsJsonParseFailed(props) ==>
                  res.body == ApiError(500, UnknownType, UnknownTitle, UnknownDetail, None))
  {
  }

  /** End to end over the route path: a zod error is answered 400 with the
      fixed detail, and with one field error per issue exactly when there is
      at least one issue. */
  lemma ZodErrorOutcome(issues: seq<Issue>, formatPointer: seq<string> -> string)
    ensures var res := RouteErrorResponse(ZodThrown(issues), formatPointer);
            && res.httpStatus == 400
            && res.body.errorType == ValidationType && res.body.title == ValidationTitle
            && res.body.detail == SchemaMismatchDetail
            && (res.body.errors.Some? <==> |issues| > 0)
            && (res.body.errors.Some? ==>
                  |res.body.errors.value| == |issues|
                  && forall k :: 0 <= k < |issues| ==> res.body.errors.value[k].detail == issues[k].message)
  {
  }

  /** Application errors thrown by routes reach the client with their own
      type, title and detail; the zod handler leaves them alone. */
  lemma AppErrorOutcome(e: AppError, formatPointer: seq<string> -> string)
    ensures var res := RouteErrorResponse(AppThrown(e), formatPointer);
            res.body.errorType == e.errorType && res.body.title == e.title && res.body.detail == e.detail
            && (IsClientError(e) ==> res.httpStatus == 503)
  {
  }
}

=== FILE: level_db_auth_store.dfy ===
/** The authentication store the session manager uses: the shared key-record
    logic plus in-memory credentials that are loaded once, saved under the
    fixed `"creds"` key, and reset to fresh credentials by `clear`. Fresh
    credentials (the transport library's `initAuthCreds()`) are the opaque
    parameter `initCreds`. */
module LevelDbAuthStore {
  import opened AuthKeys

  /** The adapter's state: the database contents and `state.creds`. */
  datatype Store<V> = Store(db: map<string, V>, creds: V)

  /** `createLevelDbAuthStore`: the stored credentials when there are any,
      otherwise fresh ones; the database is taken as found. */
  function Create<V>(db: map<string, V>, initCreds: V): (s: Store<V>)
    ensures s.db == db
    ensures CredsKey in db ==> s.creds == db[CredsKey]
    ensures CredsKey !in db ==> s.creds == initCreds
  {
    Store(db, if CredsKey in db then db[CredsKey] else initCreds)
  }

  /** `keys.get`, over the store's database. */
  method KeysGet<V>(s: Store<V>, category: string, ids: seq<string>) returns (data: map<string, V>)
    ensures forall id :: id in data <==> id in ids && CompositeKey(category, id) in s.db
    ensures forall id :: id in data ==> data[id] == s.db[CompositeKey(category, id)]
  {
    data := Get(s.db, category, ids);
  }

  /** `keys.set`: one batch applied to the database; credentials in memory
      are not involved. */
  function KeysSet<V>(s: Store<V>, data: seq<CategoryUpdates<V>>): (t: Store<V>)
    ensures t.creds == s.creds
  {
    s.(db := ApplyBatch(s.db, SetTasks(data)))
  }

  /** `clear`: fresh credentials in memory and an empty database, the
      credentials record included. */
  function Clear<V>(s: Store<V>, initCreds: V): (t: Store<V>)
    ensures t.creds == initCreds
    ensures forall k :: k !in t.db
  {
    Store(map[], initCreds)
  }

  /** `saveCreds`: the in-memory credentials overwrite the `"creds"` record
      and no other key changes. */
  function SaveCreds<V>(s: Store<V>): (t: Store<V>)
    ensures t.creds == s.creds
    ensures CredsKey in t.db && t.db[CredsKey] == s.creds
    ensures forall k :: k != CredsKey ==> (k in t.db <==> k in s.db)
    ensures forall k :: k != CredsKey && k in t.db ==> t.db[k] == s.db[k]
  {
    s.(db := s.db[CredsKey := s.creds])
  }

  /** Saving then reopening the store gives back the saved credentials,
      whatever the fresh default is. */
  lemma SaveThenCreate<V>(s: Store<V>, initCreds: V)
    ensures Create(SaveCreds(s).db, initCreds).creds == s.creds
  {
  }

  /** Key updates never disturb the credentials: reopening after a `set`
      loads the same credentials as before it. */
  lemma KeysSetKeepsCreds<V>(s: Store<V>, data: seq<CategoryUpdates<V>>, initCreds: V)
    ensures Create(KeysSet(s, data).db, initCreds).creds == Create(s.db, initCreds).creds
  {
    SetKeepsCreds(s.db, data);
  }

  /** After `clear` every lookup is empty, and a reopened store starts from
      fresh credentials. */
  lemma ClearForgetsEverything<V>(s: Store<V>, initCreds: V, category: string, ids: seq<string>)
    ensures KeysView(Clear(s, initCreds).db, category, ids) == map[]
    ensures Create(Clear(s, initCreds).db, initCreds).creds == initCreds
    ensures SaveCreds(Clear(s, initCreds)).db == map[CredsKey := initCreds]
  {
  }
}

=== FILE: text.dfy ===
/** The JavaScript string operations the gateway relies on, written out over
    `seq<char>`: `join("")`, `split(sep)`, `endsWith`, ASCII `toLowerCase`,
    the decimal rendering of integers used by template literals, and
    `trim()`. */
module Text {
  import opened Wrappers

  /** JavaScript truthiness of an optional string: present and non-empty. */
  predicate Truthy(s: Option<string>)
  {
    s.Some? && s.value != ""
  }

  /** `parts.join("")`: the parts in order with no separator. */
  function Concat(parts: seq<string>): string
  {
    if |parts| == 0 then "" else parts[0] + Concat(parts[1..])
  }

  /** `parts.join(sep)` for a one-character separator. */
  function Join(parts: seq<string>, sep: char): string
  {
    if |parts| == 0 then ""
    else if |parts| == 1 then parts[0]
    else parts[0] + [sep] + Join(parts[1..], sep)
  }

  /** Position of the first `sep` in `s`. */
  function FirstIndex(s: string, sep: char): (i: nat)
    requires sep in s
    ensures i < |s| && s[i] == sep
    ensures sep !in s[..i]
  {
    if s[0] == sep then 0
    else
      assert sep in s[1..];
      var j := FirstIndex(s[1..], sep);
      assert s[1..][..j] == s[1..1 + j];
      1 + j
  }

  /** `s.split(sep)` for a one-character separator: the maximal
      separator-free pieces between separators, always at least one
      (`"".split(",")` is `[""]`). */
  function Split(s: string, sep: char): (parts: seq<string>)
    ensures |parts| >= 1
    ensures forall k :: 0 <= k < |parts| ==> sep !in parts[k]
    decreases |s|
  {
    if sep !in s then [s]
    else
      var i := FirstIndex(s, sep);
      [s[..i]] + Split(s[i + 1..], sep)
  }

  /** Splitting loses nothing: joining the pieces back gives the input. */
  lemma {:induction false} JoinSplit(s: string, sep: char)
    ensures Join(Split(s, sep), sep) == s
    decreases |s|
  {
    if sep in s {
      var i := FirstIndex(s, sep);
      var rest := Split(s[i + 1..], sep);
      JoinSplit(s[i + 1..], sep);
      assert Split(s, sep) == [s[..i]] + rest;
      assert ([s[..i]] + rest)[1..] == rest;
      assert s == s[..i] + [sep] + s[i + 1..];
    }
  }

  /** The first separator of `a + [sep] + b` is the one after `a` when `a`
      has none. */
  lemma {:induction false} FirstIndexAfter(a: string, sep: char, b: string)
    requires sep !in a
    ensures sep in a + [sep] + b
    ensures FirstIndex(a + [sep] + b, sep) == |a|
    decreases |a|
  {
    var s := a + [sep] + b;
    assert s[|a|] == sep;
    if |a| > 0 {
      assert s[0] == a[0];
      assert s[1..] == a[1..] + [sep] + b;
      FirstIndexAfter(a[1..], sep, b);
    }
  }

  /** Splitting a join of separator-free pieces gives the pieces back. */
  lemma {:induction false} SplitJoin(parts: seq<string>, sep: char)
    requires |parts| >= 1
    requires forall k :: 0 <= k < |parts| ==> sep !in parts[k]
    ensures Split(Join(parts, sep), sep) == parts
    decreases |parts|
  {
    if |parts| > 1 {
      var s := Join(parts, sep);
      var tail := Join(parts[1..], sep);
      assert s == parts[0] + [sep] + tail;
      FirstIndexAfter(parts[0], sep, tail);
      assert s[..|parts[0]|] == parts[0];
      assert s[|parts[0]| + 1..] == tail;
      SplitJoin(parts[1..], sep);
      assert [parts[0]] + parts[1..] == parts;
    }
  }

  /** `s.endsWith(suffix)`. */
  predicate EndsWith(s: string, suffix: string)
  {
    |suffix| <= |s| && s[|s| - |suffix|..] == suffix
  }

  /** `s.startsWith(prefix)`. */
  predicate StartsWith(s: string, prefix: string)
  {
    |prefix| <= |s| && s[..|prefix|] == prefix
  }

  predicate IsAsciiUpper(c: char)
  {
    'A' <= c <= 'Z'
  }

  /** `toLowerCase` restricted to characters where it is the ASCII mapping. */
  function LowerChar(c: char): (d: char)
  {
    if IsAsciiUpper(c) then (c as int + 32) as char else c
  }

  /** `toLowerCase` on strings drawn from ASCII letters, digits and symbols. */
  function ToLower(s: string): (r: string)
    ensures |r| == |s|
    ensures forall k :: 0 <= k < |s| ==> r[k] == LowerChar(s[k])
  {
    if |s| == 0 then "" else [LowerChar(s[0])] + ToLower(s[1..])
  }

  /** Lowercasing twice is lowercasing once, and the result has no upper-case
      ASCII letter left. */
  lemma ToLowerIdempotent(s: string)
    ensures forall k :: 0 <= k < |s| ==> !IsAsciiUpper(ToLower(s)[k])
    ensures ToLower(ToLower(s)) == ToLower(s)
  {
  }

  function DigitChar(d: nat): (c: char)
    requires d < 10
    ensures '0' <= c <= '9' && c as int - '0' as int == d
  {
    (d + '0' as int) as char
  }

  predicate IsDigit(c: char)
  {
    '0' <= c <= '9'
  }

  predicate AllDigits(s: string)
  {
    forall k :: 0 <= k < |s| ==> IsDigit(s[k])
  }

  /** The number a string of decimal digits denotes. */
  function DecimalValue(s: string): nat
    requires AllDigits(s)
  {
    if |s| == 0 then 0
    else DecimalValue(s[..|s| - 1]) * 10 + (s[|s| - 1] as int - '0' as int)
  }

  /** The decimal rendering JavaScript gives a non-negative integer in a
      template literal: digits only, no leading zero. */
  function NatToString(n: nat): (r: string)
    ensures |r| >= 1 && AllDigits(r)
    ensures r[0] == '0' ==> |r| == 1
  {
    if n < 10 then [DigitChar(n)] else NatToString(n / 10) + [DigitChar(n % 10)]
  }

  /** Rendering is faithful: reading the digits back gives the number. */
  lemma {:induction false} NatToStringValue(n: nat)
    ensures DecimalValue(NatToString(n)) == n
  {
    if n >= 10 {
      var s := NatToString(n);
      assert s[..|s| - 1] == NatToString(n / 10);
      NatToStringValue(n / 10);
    }
  }

  /** Distinct numbers render differently. */
  lemma NatToStringInjective(m: nat, n: nat)
    requires NatToString(m) == NatToString(n)
    ensures m == n
  {
    NatToStringValue(m);
    NatToStringValue(n);
  }

  /** Integer rendering with a leading minus sign for negative values. */
  function IntToString(i: int): (r: string)
    ensures |r| >= 1
    ensures i < 0 <==> r[0] == '-'
  {
    if i < 0 then "-" + NatToString(-i) else NatToString(i)
  }

  /** The characters `String.prototype.trim` removes: ECMAScript WhiteSpace
      (tab, vertical tab, form feed, space, no-break space, byte order mark
      and the Unicode space separators) and LineTerminator (line feed,
      carriage return, line and paragraph separators). */
  predicate IsJsWhitespace(c: char)
  {
    var x := c as int;
    x == 0x09 || x == 0x0A || x == 0x0B || x == 0x0C || x == 0x0D || x == 0x20
    || x == 0xA0 || x == 0x1680 || (0x2000 <= x <= 0x200A)
    || x == 0x2028 || x == 0x2029 || x == 0x202F || x == 0x205F
    || x == 0x3000 || x == 0xFEFF
  }

  /** Number of leading whitespace characters. */
  function LeadingSpace(s: string): (k: nat)
    ensures k <= |s|
    ensures forall j :: 0 <= j < k ==> IsJsWhitespace(s[j])
    ensures k < |s| ==> !IsJsWhitespace(s[k])
  {
    if |s| == 0 || !IsJsWhitespace(s[0]) then 0 else 1 + LeadingSpace(s[1..])
  }

  /** Number of trailing whitespace characters. */
  function TrailingSpace(s: string): (k: nat)
    ensures k <= |s|
    ensures forall j :: |s| - k <= j < |s| ==> IsJsWhitespace(s[j])
    ensures k < |s| ==> !IsJsWhitespace(s[|s| - 1 - k])
  {
    if |s| == 0 || !IsJsWhitespace(s[|s| - 1]) then 0
    else 1 + TrailingSpace(s[..|s| - 1])
  }

  /** `s[i..j]` is what is left of `s` after dropping whitespace before `i`
      and from `j` on, and it neither starts nor ends with whitespace. */
  predicate TrimmedAt(s: string, i: nat, j: nat)
  {
    && i <= j <= |s|
    && (forall k :: 0 <= k < i ==> IsJsWhitespace(s[k]))
    && (forall k :: j <= k < |s| ==> IsJsWhitespace(s[k]))
    && (i < j ==> !IsJsWhitespace(s[i]) && !IsJsWhitespace(s[j - 1]))
  }

  /** Where the kept middle of `s` ends: before its trailing whitespace. */
  function TrimEnd(s: string): (j: nat)
    ensures LeadingSpace(s) <= j <= |s|
    ensures TrimmedAt(s, LeadingSpace(s), j)
  {
    var i := LeadingSpace(s);
    var t := s[i..];
    var k := TrailingSpace(t);
    var j := i + |t| - k;
    assert forall m :: j <= m < |s| ==> IsJsWhitespace(s[m]) by {
      forall m | j <= m < |s|
        ensures IsJsWhitespace(s[m])
      {
        assert s[m] == t[m - i];
      }
    }
    assert i < j ==> s[j - 1] == t[|t| - 1 - k];
    j
  }

  /** `s.trim()`: the middle of `s` left after removing whitespace at both
      ends. */
  function Trim(s: string): (r: string)
    ensures exists i: nat, j: nat :: TrimmedAt(s, i, j) && r == s[i..j]
  {
    s[LeadingSpace(s)..TrimEnd(s)]
  }

  /** Trimming is idempotent. */
  lemma TrimIdempotent(s: string)
    ensures Trim(Trim(s)) == Trim(s)
  {
    var r := Trim(s);
    if |r| > 0 {
      assert LeadingSpace(r) == 0;
      assert r[0..] == r;
      assert TrailingSpace(r) == 0;
    }
  }

  /** `a` can be read off `b` left to right, skipping characters of `b`. */
  predicate IsSubsequence(a: string, b: string)
    decreases |b|
  {
    |a| == 0 || (|b| > 0 && ((a[0] == b[0] && IsSubsequence(a[1..], b[1..])) || IsSubsequence(a, b[1..])))
  }

  lemma {:induction false} SubsequenceRefl(a: string)
    ensures IsSubsequence(a, a)
    decreases |a|
  {
    if |a| > 0 {
      SubsequenceRefl(a[1..]);
    }
  }

  /** Text placed in front of `b` can be skipped. */
  lemma {:induction false} SubsequencePad(a: string, p: string, b: string)
    requires IsSubsequence(a, b)
    ensures IsSubsequence(a, p + b)
    decreases |p|
  {
    if |a| > 0 && |p| > 0 {
      assert (p + b)[1..] == p[1..] + b;
      SubsequencePad(a, p[1..], b);
    } else if |p| == 0 {
      assert p + b == b;
    }
  }

  /** Subsequences of two strings concatenate to a subsequence of their
      concatenation. */
  lemma {:induction false} SubsequenceConcat(a1: string, b1: string, a2: string, b2: string)
    requires IsSubsequence(a1, b1) && IsSubsequence(a2, b2)
    ensures IsSubsequence(a1 + a2, b1 + b2)
    decreases |b1|
  {
    if |a1| == 0 {
      assert a1 + a2 == a2;
      SubsequencePad(a2, b1, b2);
    } else {
      assert (a1 + a2)[0] == a1[0] && (b1 + b2)[0] == b1[0];
      assert (a1 + a2)[1..] == a1[1..] + a2;
      assert (b1 + b2)[1..] == b1[1..] + b2;
      if a1[0] == b1[0] && IsSubsequence(a1[1..], b1[1..]) {
        SubsequenceConcat(a1[1..], b1[1..], a2, b2);
      } else {
        SubsequenceConcat(a1, b1[1..], a2, b2);
      }
    }
  }

  /** A subsequence of `b` stays one with text on both sides of `b`. */
  lemma SubsequenceEmbed(a: string, x: string, b: string, y: string)
    requires IsSubsequence(a, b)
    ensures IsSubsequence(a, x + b + y)
  {
    SubsequencePad(a, x, b);
    SubsequenceConcat(a, x + b, "", y);
    assert a + "" == a;
  }
}

=== FILE: types.dfy ===
/** The values the gateway passes between its parts: an inbound chat message
    as published to listeners, an attachment, and the argument of
    `sendMessage` (a message without its `fromMe` flag). */
module Types {
  import opened Wrappers

  type Bytes = seq<bv8>

  datatype Attachment = Attachment(filename: string, buffer: Bytes, mimetype: string)

  /** An accepted inbound message: the chat it came from, whether this
      account wrote it, and its text. */
  datatype Message = Message(chat: string, fromMe: bool, text: string)

  /** What `sendMessage` is asked to deliver. */
  datatype OutgoingMessage = OutgoingMessage(chat: string, text: string, attachment: Option<Attachment>)
}

=== FILE: whatsapp_stringify.dfy ===
/** The markdown-tree compiler that renders a parsed document in WhatsApp's
    own markup: bold `*x*`, italic `_x_`, strike `~x~`, code fences, list
    markers, and links written out as `[text](url)`. Parsing is done
    elsewhere; definitions are resolved through an identifier-to-url lookup
    supplied by the caller. */
module WhatsappStringify {
  import opened Wrappers
  import Text

  /** Nodes that carry a `value`. */
  datatype LiteralType = Code | InlineCode | OtherLiteral(name: string)

  /** Nodes that carry `children`. */
  datatype ParentType =
    | List(ordered: bool, start: Option<nat>)
    | Strong
    | Emphasis
    | Delete
    | Heading
    | Paragraph
    | Link(url: string)
    | LinkReference(identifier: string)
    | Blockquote
    | OtherParent(name: string)

  /** A markdown syntax tree. */
  datatype Node =
    | Literal(literal: LiteralType, value: string)
    | Break
    | ThematicBreak
    | Image(alt: Option<string>, url: string)
    | ImageReference(identifier: string, imageAlt: Option<string>)
    | Definition(defIdentifier: string, defUrl: string)
    | FootnoteReference(noteIdentifier: string)
    | Parent(parent: ParentType, children: seq<Node>)

  /** The `type` names `compile` tests a node with a `value` against. An
      `OtherLiteral` stands for every other such type. Its name should be
      none of these. The datatype does not enforce that, and `Compile`
      ignores the name, so a caller that builds a tree must keep it. */
  const LiteralNames: set<string> := {"code", "inlineCode"}

  /** The `type` names `compile` tests a node without a `value` against. An
      `OtherParent` stands for every other parent type; as with
      `OtherLiteral`, keeping its name out of this set is the caller's
      convention. */
  const ParentNames: set<string> := {
    "break", "thematicBreak", "image", "imageReference", "definition", "footnoteReference",
    "list", "strong", "emphasis", "delete", "heading", "paragraph", "link", "linkReference", "blockquote"
  }

  predicate UnrecognisedLiteral(name: string)
  {
    name !in LiteralNames
  }

  predicate UnrecognisedParent(name: string)
  {
    name !in ParentNames
  }

  /** The definition lookup: identifier to the url of its definition. */
  type Definitions = map<string, string>

  /** `start || 1`: a missing start and a start of 0 both count from 1. */
  function FirstNumber(start: Option<nat>): (k: nat)
    ensures k >= 1
    ensures start.Some? && start.value > 0 ==> k == start.value
  {
    if start.Some? && start.value != 0 then start.value else 1
  }

  /** The marker in front of child `i` of a parent: its number for an
      ordered list, a dash for an unordered one, nothing otherwise. */
  function ItemPrefix(p: ParentType, i: nat): string
  {
    match p
    case List(ordered, start) =>
      if ordered then Text.NatToString(FirstNumber(start) + i) + ". " else "- "
    case _ => ""
  }

  /** The text of a parent from the already joined text of its children. */
  function Wrap(p: ParentType, text: string, defs: Definitions): string
  {
    match p
    case Strong => "*" + text + "*"
    case Emphasis => "_" + text + "_"
    case Delete => "~" + text + "~"
    case Heading => "\n*" + text + "*\n"
    case Paragraph => text + "\n"
    case Link(url) => "[" + text + "](" + url + ")"
    case LinkReference(id) => if id in defs then "[" + text + "](" + defs[id] + ")" else text
    case Blockquote => "> " + text
    case List(_, _) => text
    case OtherParent(_) => text
  }

  /** The inner `compile`. The output is at least as long as the text of
      the tree's leaves; `LeavesInOutput` shows that text is in it, in
      order. */
  function Compile(n: Node, defs: Definitions): (r: string)
    ensures |Leaves(n)| <= |r|
    decreases n, 1
  {
    match n
    case Literal(Code, v) => "```" + v + "```\n"
    case Literal(InlineCode, v) => "`" + v + "`"
    case Literal(OtherLiteral(_), v) => v
    case Break => "\n"
    case ThematicBreak => "\n---\n"
    case Image(alt, url) => "[" + alt.GetOr("") + "](" + url + ")"
    case ImageReference(id, alt) =>
      if id !in defs then ""
      else if Text.Truthy(alt) then "[" + alt.value + "](" + defs[id] + ")"
      else "(" + defs[id] + ")"
    case Definition(_, _) => ""
    case FootnoteReference(_) => ""
    case Parent(p, cs) => Wrap(p, Items(n, 0, defs), defs)
  }

  /** The children of parent `n` from position `i` on, each behind its
      marker, joined with no separator. */
  function Items(n: Node, i: nat, defs: Definitions): (r: string)
    requires n.Parent? && i <= |n.children|
    ensures |ChildLeaves(n, i)| <= |r|
    decreases n, 0, |n.children| - i
  {
    if i == |n.children| then ""
    else ItemPrefix(n.parent, i) + Compile(n.children[i], defs) + Items(n, i + 1, defs)
  }

  /** The pieces `compile` collects in `values` for the children of `n` from position
      `i` on: one per child, in order, each behind its marker. */
  function Pieces(n: Node, i: nat, defs: Definitions): (ps: seq<string>)
    requires n.Parent? && i <= |n.children|
    ensures |ps| == |n.children| - i
    ensures forall k :: 0 <= k < |ps| ==> ps[k] == ItemPrefix(n.parent, i + k) + Compile(n.children[i + k], defs)
  {
    seq(|n.children| - i, k requires 0 <= k < |n.children| - i =>
          ItemPrefix(n.parent, i + k) + Compile(n.children[i + k], defs))
  }

  /** `Items` is the join, with no separator, of the pieces. */
  lemma {:induction false} ItemsJoin(n: Node, i: nat, defs: Definitions)
    requires n.Parent? && i <= |n.children|
    ensures Items(n, i, defs) == Text.Concat(Pieces(n, i, defs))
    decreases |n.children| - i
  {
    if i < |n.children| {
      ItemsJoin(n, i + 1, defs);
      assert Pieces(n, i, defs)[1..] == Pieces(n, i + 1, defs);
    }
  }

  /** What a parent puts before and after its children's text. */
  function Markers(p: ParentType, defs: Definitions): (string, string)
  {
    match p
    case Strong => ("*", "*")
    case Emphasis => ("_", "_")
    case Delete => ("~", "~")
    case Heading => ("\n*", "*\n")
    case Paragraph => ("", "\n")
    case Link(url) => ("[", "](" + url + ")")
    case LinkReference(id) => if id in defs then ("[", "](" + defs[id] + ")") else ("", "")
    case Blockquote => ("> ", "")
    case List(_, _) => ("", "")
    case OtherParent(_) => ("", "")
  }

  /** A parent's text is its children's text between its markers. */
  lemma WrapIsMarkers(p: ParentType, text: string, defs: Definitions)
    ensures Wrap(p, text, defs) == Markers(p, defs).0 + text + Markers(p, defs).1
  {
  }

  /** Every parent renders as its type's opening marker, then one piece per
      child in order (the child's text behind its list marker), then its
      type's closing marker. */
  lemma ParentRendering(n: Node, defs: Definitions)
    requires n.Parent?
    ensures Compile(n, defs) == Markers(n.parent, defs).0 + Text.Concat(Pieces(n, 0, defs)) + Markers(n.parent, defs).1
  {
    ItemsJoin(n, 0, defs);
    WrapIsMarkers(n.parent, Items(n, 0, defs), defs);
  }

  /** Leaves: code keeps its value between fences (a block fence is followed
      by a newline), other literals pass verbatim, breaks become line breaks,
      definitions and footnote references vanish, and images become links.
      Each leaf's output is a fixed template, so the lemma pins every one of
      them down as the format a WhatsApp reader sees. */
  lemma LeafRendering(v: string, name: string, alt: Option<string>, url: string, defs: Definitions)
    ensures var r := Compile(Literal(Code, v), defs);
            Text.StartsWith(r, "```") && Text.EndsWith(r, "```\n") && r[3..|r| - 4] == v
    ensures var r := Compile(Literal(InlineCode, v), defs);
            Text.StartsWith(r, "`") && Text.EndsWith(r, "`") && r[1..|r| - 1] == v
    ensures Compile(Literal(OtherLiteral(name), v), defs) == v
    ensures Compile(Break, defs) == "\n" && Compile(ThematicBreak, defs) == "\n---\n"
    ensures Compile(Definition(name, url), defs) == "" && Compile(FootnoteReference(name), defs) == ""
    ensures Compile(Image(alt, url), defs) == "[" + (if alt.Some? then alt.value else "") + "](" + url + ")"
  {
  }

  /** An image reference vanishes exactly when its identifier has no
      definition; otherwise it ends with the definition's url in parentheses
      and is bracketed by its alternative text exactly when that is
      non-empty. */
  lemma ImageReferenceRendering(id: string, alt: Option<string>, defs: Definitions)
    ensures Compile(ImageReference(id, alt), defs) == "" <==> id !in defs
    ensures id in defs ==>
              var r := Compile(ImageReference(id, alt), defs);
              && Text.EndsWith(r, "(" + defs[id] + ")")
              && (Text.StartsWith(r, "[") <==> Text.Truthy(alt))
              && (Text.Truthy(alt) ==> r == "[" + alt.value + "]" + "(" + defs[id] + ")")
  {
    if id in defs {
      var r := Compile(ImageReference(id, alt), defs);
      if !Text.Truthy(alt) {
        assert r[0] == '(';
      } else {
        assert r == "[" + alt.value + "]" + "(" + defs[id] + ")";
      }
    }
  }

  /** Two parents whose markers agree render the same children to the same
      text. */
  lemma {:induction false} ItemsSameMarkers(n: Node, m: Node, i: nat, defs: Definitions)
    requires n.Parent? && m.Parent? && n.children == m.children && i <= |n.children|
    requires forall k: nat :: ItemPrefix(n.parent, k) == ItemPrefix(m.parent, k)
    ensures Items(n, i, defs) == Items(m, i, defs)
    decreases |n.children| - i
  {
    if i < |n.children| {
      ItemsSameMarkers(n, m, i + 1, defs);
    }
  }

  /** Ordered lists: a start of 0 numbers the items exactly as a missing
      start, or a start of 1, does. */
  lemma ListStartZeroIsOne(cs: seq<Node>, defs: Definitions)
    ensures Compile(Parent(List(true, Some(0)), cs), defs) == Compile(Parent(List(true, None), cs), defs)
    ensures Compile(Parent(List(true, Some(1)), cs), defs) == Compile(Parent(List(true, None), cs), defs)
  {
    ItemsSameMarkers(Parent(List(true, Some(0)), cs), Parent(List(true, None), cs), 0, defs);
    ItemsSameMarkers(Parent(List(true, Some(1)), cs), Parent(List(true, None), cs), 0, defs);
  }

  /** Item `k` of an ordered list is numbered `start + k` (counting from 1
      when there is no start), and item markers never repeat. */
  lemma OrderedListNumbers(start: Option<nat>, j: nat, k: nat)
    requires j != k
    ensures ItemPrefix(List(true, start), k) == Text.NatToString(FirstNumber(start) + k) + ". "
    ensures ItemPrefix(List(true, start), j) != ItemPrefix(List(true, start), k)
  {
    var a := Text.NatToString(FirstNumber(start) + j);
    var b := Text.NatToString(FirstNumber(start) + k);
    if a + ". " == b + ". " {
      assert a == (a + ". ")[..|a| + 2 - 2];
      assert |a| == |b|;
      assert b == (b + ". ")[..|b| + 2 - 2];
      Text.NatToStringInjective(FirstNumber(start) + j, FirstNumber(start) + k);
    }
  }

  /** A link reference whose identifier has no definition renders as its
      bare text, like any unrecognised parent. */
  lemma UnresolvedLinkReference(id: string, name: string, cs: seq<Node>, defs: Definitions)
    requires id !in defs
    ensures Compile(Parent(LinkReference(id), cs), defs) == Compile(Parent(OtherParent(name), cs), defs)
  {
    ItemsSameMarkers(Parent(LinkReference(id), cs), Parent(OtherParent(name), cs), 0, defs);
  }

  /** Identifiers a tree looks up. */
  function References(n: Node): set<string>
    decreases n, 1
  {
    match n
    case ImageReference(id, _) => {id}
    case Parent(LinkReference(id), _) => {id} + ChildReferences(n, 0)
    case Parent(_, _) => ChildReferences(n, 0)
    case _ => {}
  }

  function ChildReferences(n: Node, i: nat): set<string>
    requires n.Parent? && i <= |n.children|
    decreases n, 0, |n.children| - i
  {
    if i == |n.children| then {} else References(n.children[i]) + ChildReferences(n, i + 1)
  }

  /** Two lookups that agree on an identifier. */
  predicate AgreeOn(d1: Definitions, d2: Definitions, id: string)
  {
    (id in d1 <==> id in d2) && (id in d1 ==> d1[id] == d2[id])
  }

  /** The output depends on the definitions only through the identifiers the
      tree references. */
  lemma {:induction false} DefinitionsFrame(n: Node, d1: Definitions, d2: Definitions)
    requires forall id :: id in References(n) ==> AgreeOn(d1, d2, id)
    ensures Compile(n, d1) == Compile(n, d2)
    decreases n, 1
  {
    if n.Parent? {
      assert ChildReferences(n, 0) <= References(n);
      ItemsFrame(n, 0, d1, d2);
      if n.parent.LinkReference? {
        assert AgreeOn(d1, d2, n.parent.identifier);
      }
    } else if n.ImageReference? {
      assert AgreeOn(d1, d2, n.identifier);
    }
  }

  lemma {:induction false} ItemsFrame(n: Node, i: nat, d1: Definitions, d2: Definitions)
    requires n.Parent? && i <= |n.children|
    requires forall id :: id in ChildReferences(n, i) ==> AgreeOn(d1, d2, id)
    ensures Items(n, i, d1) == Items(n, i, d2)
    decreases n, 0, |n.children| - i
  {
    if i < |n.children| {
      DefinitionsFrame(n.children[i], d1, d2);
      ItemsFrame(n, i + 1, d1, d2);
    }
  }

  /** Trees of plain text under transparent parents (document roots, list
      items, table cells and the like). */
  predicate IsPlain(n: Node)
    decreases n, 1
  {
    match n
    case Literal(OtherLiteral(name), _) => UnrecognisedLiteral(name)
    case Parent(OtherParent(name), _) => UnrecognisedParent(name) && ChildrenPlain(n, 0)
    case _ => false
  }

  predicate ChildrenPlain(n: Node, i: nat)
    requires n.Parent? && i <= |n.children|
    decreases n, 0, |n.children| - i
  {
    i == |n.children| || (IsPlain(n.children[i]) && ChildrenPlain(n, i + 1))
  }

  /** The text values of a tree's leaves, left to right. */
  function Leaves(n: Node): string
    decreases n, 1
  {
    match n
    case Literal(_, v) => v
    case Parent(_, _) => ChildLeaves(n, 0)
    case _ => ""
  }

  function ChildLeaves(n: Node, i: nat): string
    requires n.Parent? && i <= |n.children|
    decreases n, 0, |n.children| - i
  {
    if i == |n.children| then "" else Leaves(n.children[i]) + ChildLeaves(n, i + 1)
  }

  /** Plain text passes through verbatim: no escaping, no separators, no
      markup, just the leaves in document order. */
  lemma {:induction false} PlainTextVerbatim(n: Node, defs: Definitions)
    requires IsPlain(n)
    ensures Compile(n, defs) == Leaves(n)
    decreases n, 1
  {
    if n.Parent? {
      PlainItemsVerbatim(n, 0, defs);
    }
  }

  lemma {:induction false} PlainItemsVerbatim(n: Node, i: nat, defs: Definitions)
    requires n.Parent? && n.parent.OtherParent? && i <= |n.children| && ChildrenPlain(n, i)
    ensures Items(n, i, defs) == ChildLeaves(n, i)
    decreases n, 0, |n.children| - i
  {
    if i < |n.children| {
      PlainTextVerbatim(n.children[i], defs);
      PlainItemsVerbatim(n, i + 1, defs);
    }
  }

  /** No literal text is lost: the text of the tree's leaves can be read off
      the output in document order, with markup and markers in between. */
  lemma {:induction false} LeavesInOutput(n: Node, defs: Definitions)
    ensures Text.IsSubsequence(Leaves(n), Compile(n, defs))
    decreases n, 1
  {
    match n
    case Literal(Code, v) =>
      Text.SubsequenceRefl(v);
      Text.SubsequenceEmbed(v, "```", v, "```\n");
    case Literal(InlineCode, v) =>
      Text.SubsequenceRefl(v);
      Text.SubsequenceEmbed(v, "`", v, "`");
    case Literal(OtherLiteral(_), v) =>
      Text.SubsequenceRefl(v);
    case Parent(p, _) =>
      ItemsLeavesInOutput(n, 0, defs);
      WrapIsMarkers(p, Items(n, 0, defs), defs);
      Text.SubsequenceEmbed(ChildLeaves(n, 0), Markers(p, defs).0, Items(n, 0, defs), Markers(p, defs).1);
    case _ =>
  }

  lemma {:induction false} ItemsLeavesInOutput(n: Node, i: nat, defs: Definitions)
    requires n.Parent? && i <= |n.children|
    ensures Text.IsSubsequence(ChildLeaves(n, i), Items(n, i, defs))
    decreases n, 0, |n.children| - i
  {
    if i < |n.children| {
      var c := n.children[i];
      LeavesInOutput(c, defs);
      Text.SubsequencePad(Leaves(c), ItemPrefix(n.parent, i), Compile(c, defs));
      ItemsLeavesInOutput(n, i + 1, defs);
      Text.SubsequenceConcat(Leaves(c), ItemPrefix(n.parent, i) + Compile(c, defs),
                             ChildLeaves(n, i + 1), Items(n, i + 1, defs));
    }
  }

  /** The compiler: the root's text with surrounding whitespace trimmed. */
  function Compiler(root: Node, defs: Definitions): (out: string)
    ensures exists i: nat, j: nat :: Text.TrimmedAt(Compile(root, defs), i, j) && out == Compile(root, defs)[i..j]
  {
    Text.Trim(Compile(root, defs))
  }
}

=== FILE: wrappers.dfy ===
/** Wrappers used across the model: `Option` stands for a
    JavaScript value that may be `undefined`/`null`, `Result` for a call that
    either returns or throws. */
module Wrappers {

  datatype Option<+T> = None | Some(value: T) {

    /** The wrapped value, or `default` when there is none. */
    function GetOr(default: T): T
    {
      match this
      case Some(v) => v
      case None => default
    }
  }

  /** `Success` carries the returned value, `Failure` the thrown one. */
  datatype Result<+R, +E> = Success(value: R) | Failure(error: E)
}
